=== FILE: README.md ===
# simple-rsm in Dafny

A model of the pure logic of a replicated single-register service built on a
consensus/log-replication substrate (Aeron Cluster). Every node holds one Java
`long`; clients send GET and SET commands as fixed-offset binary messages, every
node applies each committed command to its own register and answers with the
correlation id, the register's value and its own member id; the client waits
for the response carrying its correlation id. Ports and the topology strings
handed to the substrate are derived from the ordered host list.

Modules (one per source component, plus shared helpers):

- `JavaTypes` — Java `long`, `int`, `char` as integer ranges, `int`
  wrap-around, and the exceptions the modelled code throws.
- `Wrappers` — `Result`, standing for "returns a value or throws".
- `Bytes` — Agrona-style `putLong`/`putInt`/`putChar` and bounds-checked
  `getLong`/`getInt`/`getChar` on `seq<byte>`. The byte order is fixed to
  little-endian in every encoder and decoder (the source uses the buffer's
  native order, which it never sets).
- `Strings` — `Integer.toString`, joining and counting, used by the topology
  strings.
- `ClusterNodeConfig` — port constants, `calculatePort`, `ingressEndpoints`,
  `clusterMembers`, `shmDirForName`.
- `MessageTypes` — the `GET('g')` / `SET('s')` enum and `fromCode`.
- `StateMachine` — the register.
- `ClusteredService` — `onSessionMessage` as a pure step
  `(register, memberId, message) -> exception | (register', response)`, and a
  node's run over a stream of committed messages.
- `Client` — request encoders, `onMessage`, and the `offer` and
  `waitForCorrelationId` loops of `getValue`/`setValue` over a sequential
  transport oracle.
- `Protocol` — round trips across client and service.

Modelling choices:

- A message is a `Fragment(buffer, offset)`. A read whose field does not fit
  in the buffer throws `IndexOutOfBoundsException`, as Agrona's bounds check
  does. An exception is a `Failure`. Nothing after it happens: no mutation,
  no offer.
- The transport is a sequential oracle. An offer attempt is the value
  `offer` returned plus the messages the `pollEgress` after it delivered. A
  wait-loop poll is one batch of messages. When the oracle runs out, the
  outcome says the Java client would still be retrying or spinning.
- The correlation id (`System.nanoTime()` in the Java client) and the node's
  member id (`cluster.memberId()`) are parameters.
- Requests are the 24 bytes the layout defines, written into a zeroed
  buffer. Responses are the 20 bytes the service writes.
- In the service, the `default` branch of the switch on the message type
  cannot be reached. `fromCode` has already thrown for every other tag, and
  the model's `match` over the two kinds is exhaustive.
- The client's last-received correlation id and value both start at 0
  (`Client.INITIAL_STATE`).
- `getValue` and `setValue` wait only while the last received correlation
  id differs from the new one. If the new id (a `System.nanoTime()`
  reading) is already the last recorded one, for instance 0 on a fresh
  client, the call can return without its own response. The wait checks
  the ids first, after the polls of the offer loop have been applied; if
  those polls moved the recorded id away, it polls again. The value
  returned is the one recorded at the first check where the ids match.
  The model keeps this behaviour: `Client.GetValue` and `Client.SetValue`
  promise a delivered response carrying the id only when the ids differ
  at the start.
- `File.separator` is `/`, the separator on the POSIX hosts that
  `/dev/shm` exists on.

## Model

| member | source | states |
|---|---|---|
| ClusterNodeConfig.ChannelOffsetsDistinct | src/main/java/rsm/common/ClusterNodeConfig.java:24-30 | the five channel offsets are pairwise distinct, lie in 1..5 below PORTS_PER_NODE, and a member record lists each once |
| ClusterNodeConfig.CalculatePort | src/main/java/rsm/common/ClusterNodeConfig.java:202-205 | the port is 9000 + nodeId*100 + offset modulo 2^32, as Java `int` arithmetic computes it, and equals that plain sum whenever the sum fits in an `int` |
| ClusterNodeConfig.CalculatePortArithmetic | src/main/java/rsm/common/ClusterNodeConfig.java:202-205 | for node ids 0..MAX_NODE_ID and offsets below 100, the port is 9000 + nodeId*100 + offset, and node id and offset are recovered as quotient and remainder of port - 9000 by 100 |
| ClusterNodeConfig.PortsDistinct | src/main/java/rsm/common/ClusterNodeConfig.java:202-205 | two different (node, channel) pairs of a topology never get the same port |
| ClusterNodeConfig.IngressEndpoints | src/main/java/rsm/common/ClusterNodeConfig.java:228-240 | the loop's result is the `i=host:port` entries in index order joined by `,` with no trailing comma; an empty list throws StringIndexOutOfBoundsException(-1) from `setLength` |
| ClusterNodeConfig.IngressEndpointsAppend | src/main/java/rsm/common/ClusterNodeConfig.java:231-236 | adding a host appends `,` and that host's entry, numbered with its index |
| ClusterNodeConfig.IngressEndpointsCommas | src/main/java/rsm/common/ClusterNodeConfig.java:233-238 | with comma-free host names there are exactly n - 1 commas, so none trails |
| ClusterNodeConfig.AppendIngressEntry | src/main/java/rsm/common/ClusterNodeConfig.java:233-235 | one iteration appends node i's `i=host:port` entry, with its client-facing port, and then a comma |
| ClusterNodeConfig.AppendMemberRecord | src/main/java/rsm/common/ClusterNodeConfig.java:247-253 | one iteration appends the node id, the client, member, log, transfer and archive-control addresses in that order, then a bar |
| ClusterNodeConfig.ClusterMembers | src/main/java/rsm/common/ClusterNodeConfig.java:242-257 | the result is the member records of all hosts in index order, each with its terminator |
| ClusterNodeConfig.ClusterMembersShape | src/main/java/rsm/common/ClusterNodeConfig.java:244-256 | with bar-free host names there is exactly one bar (the record terminator) per host; the string is empty exactly for no hosts, and otherwise ends with a bar (not trimmed) |
| ClusterNodeConfig.ClusterMembersAppend | src/main/java/rsm/common/ClusterNodeConfig.java:245-254 | adding a host appends exactly that host's record |
| ClusterNodeConfig.ShmDirForName | src/main/java/rsm/common/ClusterNodeConfig.java:259-262 | the path is `/dev/shm/` followed by the name |
| ClusterNodeConfig.ShmDirForNameInjective | src/main/java/rsm/common/ClusterNodeConfig.java:259-262 | distinct names give distinct directories |
| Strings.IntToString | src/main/java/rsm/common/ClusterNodeConfig.java:233-234 | `StringBuilder.append(int)` prints a non-empty string of digits and '-', starting with '-' exactly for negative numbers |
| Strings.IntToStringInjective | src/main/java/rsm/common/ClusterNodeConfig.java:233-234 | the numbers the builders append (`StringBuilder.append(int)`) print differently when they differ, via a parser that inverts the printing |
| MessageTypes.CharCode | src/main/java/rsm/node/MessageType.java:22-24 | GET's tag is 'g' and SET's tag is 's', and no other kind has either tag |
| MessageTypes.FromCode | src/main/java/rsm/node/MessageType.java:13-20 | succeeds exactly on the two tags, then returns the kind whose tag is the input; any other code throws IllegalStateException carrying it |
| MessageTypes.WireTags | src/main/java/rsm/node/MessageType.java:5-24 | 'g' and 's' are the tags of GET and SET and decode back to them |
| MessageTypes.FromCodeOfCharCode | src/main/java/rsm/node/MessageType.java:5-24 | decoding a kind's tag gives back that kind |
| MessageTypes.CharCodeInjective | src/main/java/rsm/node/MessageType.java:5-11 | different kinds have different tags |
| StateMachine.Create | src/main/java/rsm/node/ReplicatedStateMachine.java:7 | a new register reads 0 |
| StateMachine.SetValue | src/main/java/rsm/node/ReplicatedStateMachine.java:9-11 | after a set the register reads the value set |
| StateMachine.GetValue | src/main/java/rsm/node/ReplicatedStateMachine.java:13-15 | the value read is all there is to the machine: the machine is exactly the register holding it |
| StateMachine.LastWriteWins | src/main/java/rsm/node/ReplicatedStateMachine.java:9-11 | two sets leave what the second alone leaves; repeating a set changes nothing |
| ClusteredService.DecodeRequest | src/main/java/rsm/node/ReplicatedStateMachineClusteredService.java:53-65 | succeeds exactly when the id and tag fit, the tag is known, and for a SET the value fits; it then returns the long at offset, the kind whose tag is the char at offset+8, and for SET the long at offset+16 |
| ClusteredService.Apply | src/main/java/rsm/node/ReplicatedStateMachineClusteredService.java:58-67 | a GET leaves the register unchanged; a SET makes it read the decoded value |
| ClusteredService.EncodeResponse | src/main/java/rsm/node/ReplicatedStateMachineClusteredService.java:69-71 | the correlation id reads back at 0, the value at 8 and the member id at 16 |
| ClusteredService.OnSessionMessage | src/main/java/rsm/node/ReplicatedStateMachineClusteredService.java:46-74 | fails exactly when decoding fails, with the same exception; otherwise GET keeps the register, SET stores the value, and one 20-byte response carries the request's correlation id, the post-step value and the node's member id |
| ClusteredService.UnknownTagRejected | src/main/java/rsm/node/ReplicatedStateMachineClusteredService.java:54 | an unknown tag throws IllegalStateException naming it; the register is unchanged and nothing is offered |
| ClusteredService.Deliver | src/main/java/rsm/node/ReplicatedStateMachineClusteredService.java:53-73 | a message is rejected exactly when it fails to decode, and a rejected message leaves the register unchanged |
| ClusteredService.Run | src/main/java/rsm/node/ReplicatedStateMachineClusteredService.java:46-74 | a node emits exactly one output per committed message |
| ClusteredService.RunAt | src/main/java/rsm/node/ReplicatedStateMachineClusteredService.java:46-74 | output i is what message i gets from the register the first i messages left |
| ClusteredService.RunValueIsLastWrite | src/main/java/rsm/node/ReplicatedStateMachineClusteredService.java:58-67 | after a stream the register holds the value of the last SET that decoded, or its starting value if none did (reference definition `LastWritten`) |
| ClusteredService.RunOutputsMatchMessages | src/main/java/rsm/node/ReplicatedStateMachineClusteredService.java:53-73 | output i is rejected exactly when message i fails to decode; otherwise it carries message i's correlation id and the value of the last SET decoded up to and including message i |
| ClusteredService.ReplicasAgree | src/main/java/rsm/node/ReplicatedStateMachineClusteredService.java:26-71 | nodes with different member ids fed the same messages from the same register end with equal registers and outputs that differ only in bytes 16..19 |
| ClusteredService.RunResponsesIdentifyNode | src/main/java/rsm/node/ReplicatedStateMachineClusteredService.java:71 | every response a node sends holds that node's member id at byte 16 |
| Client.EncodeGetRequest | src/main/java/rsm/client/ReplicatedStateMachineClient.java:87-88 | the correlation id reads back at 0 and the GET tag `'g'` at 8 |
| Client.EncodeSetRequest | src/main/java/rsm/client/ReplicatedStateMachineClient.java:103-105 | the correlation id reads back at 0, the SET tag `'s'` at 8 and the value at 16 |
| Client.OnMessage | src/main/java/rsm/client/ReplicatedStateMachineClient.java:121-135 | succeeds exactly when two longs fit at the offset; it records the long at offset as last correlation id and the long at offset+8 as last value, and never reads the member id |
| Client.ReceivedFromSomeMessage | src/main/java/rsm/client/ReplicatedStateMachineClient.java:133-134 | the recorded correlation id and value, if changed, come together from one delivered message |
| Client.Offer | src/main/java/rsm/client/ReplicatedStateMachineClient.java:152-168 | the loop exits only after an attempt with a non-negative result, every earlier attempt having been negative, with the egress messages polled so far applied |
| Client.RecordedAfterUnique | src/main/java/rsm/client/ReplicatedStateMachineClient.java:114-118 | there is only one way a call can stop: the first accepted offer attempt and the first poll after which the ids match are determined, and so is the state they leave |
| Client.WaitForCorrelationId | src/main/java/rsm/client/ReplicatedStateMachineClient.java:114-118 | returns only when the last correlation id equals the awaited one, at the first check where it does; until then it keeps polling |
| Client.GetValue | src/main/java/rsm/client/ReplicatedStateMachineClient.java:81-95 | on return, the request built is a GET for the correlation id and some offer attempt accepted it (all earlier attempts were refused); the last correlation id is its own and the value returned is the one recorded with it; when the id was not already the last recorded one, a delivered response carried both; in every case the state returned is the one left by the messages delivered up to the first accepted attempt and then by the wait's polls up to the first check where the ids match |
| Client.SetValue | src/main/java/rsm/client/ReplicatedStateMachineClient.java:97-112 | on return, the request built is a SET for the id and value and some offer attempt accepted it (all earlier attempts were refused); the value returned is the one recorded under its own correlation id, not the value sent; when the id was not already the last recorded one, a delivered response carried both; in every case the state returned is the one left by the messages delivered up to the first accepted attempt and then by the wait's polls up to the first check where the ids match |
| Protocol.ServiceDecodesGetRequest | src/main/java/rsm/client/ReplicatedStateMachineClient.java:87-88 | the service decodes a client GET request, at any offset in any buffer, to a GET with the same correlation id |
| Protocol.ServiceDecodesSetRequest | src/main/java/rsm/client/ReplicatedStateMachineClient.java:103-105 | the service decodes a client SET request, at any offset, to the same correlation id and value |
| Protocol.ClientDecodesResponse | src/main/java/rsm/client/ReplicatedStateMachineClient.java:128-129 | the client's listener records exactly the correlation id and register value the service wrote |
| Protocol.SetRequestAnswered | src/main/java/rsm/node/ReplicatedStateMachineClusteredService.java:62-71 | a node answers a client SET with the value set, under the request's correlation id |
| Protocol.GetReadsLastWrite | src/main/java/rsm/node/ReplicatedStateMachineClusteredService.java:58-71 | after any stream of committed messages, a client GET is answered, under its correlation id, with the value of the last SET in the stream that decoded, or the starting value if none did |
| Protocol.SetThenGet | src/main/java/rsm/node/ReplicatedStateMachineClusteredService.java:58-71 | on any node, a GET committed after a SET answers with the value that SET wrote, under the GET's correlation id |

## Left out

- `ClusterNodeConfig.create`, `errorHandler`, `aeronDirectoryName`, the context getters, `udpChannel` and `logControlChannel`: they configure the substrate's context objects, and the channel strings come from a library URI builder whose format is not part of this model.
- Client `start`/`stop`, the background polling and keep-alive jobs, the executor, the idle strategy and `await()`: thread and timing plumbing. The transport is a sequential oracle instead, so the races between the background poller and the waiting caller are not modelled.
- The node and gateway processes, the HTTP gateway, YAML topology loading, and the role, timer, snapshot, session-open/close and termination callbacks: process lifecycle, I/O, or empty or logging-only callbacks.
- `getLastReplyingNodeId`: the gateway calls it, but the client shown never defines it, and its `onMessage` never reads the member-id field.
- Buffer lengths: the source offers `capacity()` bytes of expandable buffers. The model keeps only the 24 request bytes and 20 response bytes the layouts define, and ignores the message `length` parameter.
- ClusterNodeConfig.CalculatePortArithmetic: the plain-sum form and the distinctness of ports hold only for node ids up to MAX_NODE_ID (21474745). Beyond that, `CalculatePort` wraps the way Java `int` arithmetic does.
- ClusterNodeConfig.IngressEndpoints: host lists are limited to `Integer.MAX_VALUE` entries, the largest size a Java `List` reports; the same bound applies to `ClusterMembers`.
- Logging calls: no effect on state.

=== FILE: bytes.dfy ===
/** Agrona-style fixed-offset access to a byte buffer. `putLong`, `putInt` and
    `putChar` without an explicit byte order use the buffer's native order;
    this model fixes that order to little-endian for every encoder and decoder.
    A read or write whose field does not fit inside the buffer throws
    IndexOutOfBoundsException, as Agrona's bounds checks do. */
module Bytes {
  import opened JavaTypes
  import opened Wrappers

  newtype byte = x: int | 0 <= x < 256

  /** org.agrona.BitUtil sizes. */
  const SIZE_OF_LONG: nat := 8
  const SIZE_OF_INT: nat := 4
  const SIZE_OF_CHAR: nat := 2

  /** A message as the transport hands it over: a buffer and the offset at
      which the message starts. */
  datatype Fragment = Fragment(buffer: seq<byte>, offset: nat)

  function Pow256(n: nat): (r: nat)
    ensures r > 0
  {
    if n == 0 then 1 else 256 * Pow256(n - 1)
  }

  lemma Pow256Values()
    ensures Pow256(2) == 0x1_0000
    ensures Pow256(4) == 0x1_0000_0000
    ensures Pow256(8) == 0x1_0000_0000_0000_0000
  {
    assert Pow256(1) == 256;
    assert Pow256(2) == 0x1_0000;
    assert Pow256(3) == 0x100_0000;
    assert Pow256(4) == 0x1_0000_0000;
    assert Pow256(5) == 0x100_0000_0000;
    assert Pow256(6) == 0x1_0000_0000_0000;
    assert Pow256(7) == 0x100_0000_0000_0000;
  }

  /** The n least significant bytes of u, least significant first. */
  function ToLittleEndian(u: nat, n: nat): (r: seq<byte>)
    ensures |r| == n
  {
    if n == 0 then [] else [(u % 256) as byte] + ToLittleEndian(u / 256, n - 1)
  }

  /** The unsigned number whose little-endian bytes are bs. */
  function FromLittleEndian(bs: seq<byte>): (u: nat)
    ensures u < Pow256(|bs|)
  {
    if |bs| == 0 then 0 else bs[0] as nat + 256 * FromLittleEndian(bs[1..])
  }

  lemma {:induction false} FromToLittleEndian(u: nat, n: nat)
    requires u < Pow256(n)
    ensures FromLittleEndian(ToLittleEndian(u, n)) == u
  {
    if n > 0 {
      var bs := ToLittleEndian(u, n);
      assert bs[1..] == ToLittleEndian(u / 256, n - 1);
      assert u / 256 < Pow256(n - 1) by {
        assert u < 256 * Pow256(n - 1);
      }
      FromToLittleEndian(u / 256, n - 1);
    }
  }

  lemma {:induction false} ToFromLittleEndian(bs: seq<byte>)
    ensures ToLittleEndian(FromLittleEndian(bs), |bs|) == bs
  {
    if |bs| > 0 {
      var u := FromLittleEndian(bs);
      var rest := FromLittleEndian(bs[1..]);
      assert u % 256 == bs[0] as nat && u / 256 == rest;
      ToFromLittleEndian(bs[1..]);
      assert bs == [bs[0]] + bs[1..];
    }
  }

  /** Half the number of values of the given byte width: the bound of the
      signed range. */
  function HalfRange(width: nat): (h: int)
    requires width > 0
    ensures Pow256(width) == 2 * h
  {
    Pow256(width) / 2
  }

  /** Two's complement: the unsigned number with the same bit pattern as the
      signed value x of the given byte width. */
  function ToUnsigned(x: int, width: nat): (u: nat)
    requires width > 0
    requires -HalfRange(width) <= x < HalfRange(width)
    ensures u < Pow256(width)
  {
    if x < 0 then x + Pow256(width) else x
  }

  function ToSigned(u: nat, width: nat): (x: int)
    requires width > 0
    requires u < Pow256(width)
    ensures -HalfRange(width) <= x < HalfRange(width)
  {
    if u < HalfRange(width) then u else u - Pow256(width)
  }

  // ---------------------------------------------------------------- encodings

  function EncodeLong(v: Long): (bs: seq<byte>)
    ensures |bs| == SIZE_OF_LONG
  {
    Pow256Values();
    ToLittleEndian(ToUnsigned(v, SIZE_OF_LONG), SIZE_OF_LONG)
  }

  function DecodeLong(bs: seq<byte>): Long
    requires |bs| == SIZE_OF_LONG
  {
    Pow256Values();
    ToSigned(FromLittleEndian(bs), SIZE_OF_LONG)
  }

  function EncodeInt(v: Int32): (bs: seq<byte>)
    ensures |bs| == SIZE_OF_INT
  {
    Pow256Values();
    ToLittleEndian(ToUnsigned(v, SIZE_OF_INT), SIZE_OF_INT)
  }

  function DecodeInt(bs: seq<byte>): Int32
    requires |bs| == SIZE_OF_INT
  {
    Pow256Values();
    ToSigned(FromLittleEndian(bs), SIZE_OF_INT)
  }

  function EncodeChar(c: Char16): (bs: seq<byte>)
    ensures |bs| == SIZE_OF_CHAR
  {
    Pow256Values();
    ToLittleEndian(c, SIZE_OF_CHAR)
  }

  function DecodeChar(bs: seq<byte>): Char16
    requires |bs| == SIZE_OF_CHAR
  {
    Pow256Values();
    FromLittleEndian(bs)
  }

  lemma LongRoundTrip(v: Long)
    ensures DecodeLong(EncodeLong(v)) == v
  {
    Pow256Values();
    FromToLittleEndian(ToUnsigned(v, SIZE_OF_LONG), SIZE_OF_LONG);
  }

  lemma IntRoundTrip(v: Int32)
    ensures DecodeInt(EncodeInt(v)) == v
  {
    Pow256Values();
    FromToLittleEndian(ToUnsigned(v, SIZE_OF_INT), SIZE_OF_INT);
  }

  lemma CharRoundTrip(c: Char16)
    ensures DecodeChar(EncodeChar(c)) == c
  {
    Pow256Values();
    FromToLittleEndian(c, SIZE_OF_CHAR);
  }

  /** Every 8-byte pattern is the encoding of exactly one long. */
  lemma LongBytesRoundTrip(bs: seq<byte>)
    requires |bs| == SIZE_OF_LONG
    ensures EncodeLong(DecodeLong(bs)) == bs
  {
    Pow256Values();
    ToFromLittleEndian(bs);
  }

  // ------------------------------------------------------- buffer access

  predicate Fits(buffer: seq<byte>, index: int, width: nat) {
    0 <= index && index + width <= |buffer|
  }

  function OutOfBounds(buffer: seq<byte>, index: int, width: nat): Exception {
    IndexOutOfBoundsException(index, width, |buffer|)
  }

  /** The buffer with bs written at index; nothing else changes. */
  function Put(buffer: seq<byte>, index: nat, bs: seq<byte>): (r: seq<byte>)
    requires index + |bs| <= |buffer|
    ensures |r| == |buffer|
    ensures r[index..index + |bs|] == bs
    ensures forall k :: 0 <= k < |buffer| && !(index <= k < index + |bs|) ==> r[k] == buffer[k]
  {
    buffer[..index] + bs + buffer[index + |bs|..]
  }

  function PutLong(buffer: seq<byte>, index: nat, v: Long): (r: seq<byte>)
    requires Fits(buffer, index, SIZE_OF_LONG)
    ensures |r| == |buffer|
  {
    Put(buffer, index, EncodeLong(v))
  }

  function PutInt(buffer: seq<byte>, index: nat, v: Int32): (r: seq<byte>)
    requires Fits(buffer, index, SIZE_OF_INT)
    ensures |r| == |buffer|
  {
    Put(buffer, index, EncodeInt(v))
  }

  function PutChar(buffer: seq<byte>, index: nat, c: Char16): (r: seq<byte>)
    requires Fits(buffer, index, SIZE_OF_CHAR)
    ensures |r| == |buffer|
  {
    Put(buffer, index, EncodeChar(c))
  }

  /** `getLong`, `getInt` and `getChar` with Agrona's bounds check. */
  function GetLong(buffer: seq<byte>, index: int): (r: Result<Long, Exception>)
    ensures r.Success? <==> Fits(buffer, index, SIZE_OF_LONG)
  {
    if Fits(buffer, index, SIZE_OF_LONG)
    then Success(DecodeLong(buffer[index..index + SIZE_OF_LONG]))
    else Failure(OutOfBounds(buffer, index, SIZE_OF_LONG))
  }

  function GetInt(buffer: seq<byte>, index: int): (r: Result<Int32, Exception>)
    ensures r.Success? <==> Fits(buffer, index, SIZE_OF_INT)
  {
    if Fits(buffer, index, SIZE_OF_INT)
    then Success(DecodeInt(buffer[index..index + SIZE_OF_INT]))
    else Failure(OutOfBounds(buffer, index, SIZE_OF_INT))
  }

  function GetChar(buffer: seq<byte>, index: int): (r: Result<Char16, Exception>)
    ensures r.Success? <==> Fits(buffer, index, SIZE_OF_CHAR)
  {
    if Fits(buffer, index, SIZE_OF_CHAR)
    then Success(DecodeChar(buffer[index..index + SIZE_OF_CHAR]))
    else Failure(OutOfBounds(buffer, index, SIZE_OF_CHAR))
  }

  /** Reading back what was written. */
  lemma GetPutLong(buffer: seq<byte>, index: nat, v: Long)
    requires Fits(buffer, index, SIZE_OF_LONG)
    ensures GetLong(PutLong(buffer, index, v), index) == Success(v)
  {
    LongRoundTrip(v);
  }

  lemma GetPutInt(buffer: seq<byte>, index: nat, v: Int32)
    requires Fits(buffer, index, SIZE_OF_INT)
    ensures GetInt(PutInt(buffer, index, v), index) == Success(v)
  {
    IntRoundTrip(v);
  }

  lemma GetPutChar(buffer: seq<byte>, index: nat, c: Char16)
    requires Fits(buffer, index, SIZE_OF_CHAR)
    ensures GetChar(PutChar(buffer, index, c), index) == Success(c)
  {
    CharRoundTrip(c);
  }

  /** A write leaves every byte outside its field as it was, so it does not
      disturb a field that lies wholly before or after it. */
  lemma PutPreservesSlice(buffer: seq<byte>, index: nat, bs: seq<byte>, lo: nat, hi: nat)
    requires index + |bs| <= |buffer|
    requires lo <= hi <= |buffer|
    requires hi <= index || index + |bs| <= lo
    ensures Put(buffer, index, bs)[lo..hi] == buffer[lo..hi]
  {
    var r := Put(buffer, index, bs);
    forall k | lo <= k < hi
      ensures r[k] == buffer[k]
    {
    }
  }

  /** A field read at the same position of the same bytes embedded in a larger
      buffer is unchanged. */
  lemma SliceOfEmbedding(pre: seq<byte>, bs: seq<byte>, post: seq<byte>, index: nat, width: nat)
    requires index + width <= |bs|
    ensures (pre + bs + post)[|pre| + index..|pre| + index + width] == bs[index..index + width]
  {
    var whole := pre + bs + post;
    forall k | |pre| + index <= k < |pre| + index + width
      ensures whole[k] == bs[k - |pre|]
    {
    }
  }

  /** Reads see the same field wherever the buffer sits inside a larger one. */
  lemma GetLongEmbedded(pre: seq<byte>, bs: seq<byte>, post: seq<byte>, index: nat)
    requires Fits(bs, index, SIZE_OF_LONG)
    ensures GetLong(pre + bs + post, |pre| + index) == GetLong(bs, index)
  {
    SliceOfEmbedding(pre, bs, post, index, SIZE_OF_LONG);
  }

  lemma GetCharEmbedded(pre: seq<byte>, bs: seq<byte>, post: seq<byte>, index: nat)
    requires Fits(bs, index, SIZE_OF_CHAR)
    ensures GetChar(pre + bs + post, |pre| + index) == GetChar(bs, index)
  {
    SliceOfEmbedding(pre, bs, post, index, SIZE_OF_CHAR);
  }

  function Zeros(n: nat): (r: seq<byte>)
    ensures |r| == n
    ensures forall k :: 0 <= k < n ==> r[k] == 0
  {
    seq(n, _ => 0)
  }
}

=== FILE: client.dfy ===
/** The client: request encoding, the egress listener that records the last
    response, and the offer / wait loops of `getValue` and `setValue`.

    The transport is a sequential oracle. Each offer attempt is an `Attempt`:
    the result `offer` returned and the messages the `pollEgress` call after
    it delivered. Each `pollEgress` of the wait loop delivers one batch of
    messages. The correlation id, which the Java client reads from
    `System.nanoTime()`, is a parameter. */
module Client {
  import opened JavaTypes
  import opened Wrappers
  import opened Bytes
  import opened MessageTypes

  /** What the listener remembers: the last response's correlation id and
      value. Both start at 0. */
  datatype ClientState = ClientState(lastReceivedCorrelationId: Long, lastReceivedValue: Long)

  const INITIAL_STATE: ClientState := ClientState(0, 0)

  /** Requests are modelled as the 24 bytes the layout defines. */
  const REQUEST_LENGTH: nat := SIZE_OF_LONG * 3

  /** The request of `getValue`: correlation id at 0, 'g' at 8, zeros
      elsewhere. */
  function EncodeGetRequest(correlationId: Long): (r: seq<byte>)
    ensures |r| == REQUEST_LENGTH
    ensures GetLong(r, 0) == Success(correlationId)
    ensures GetChar(r, SIZE_OF_LONG) == Success(CharCode(GET))
    ensures forall k :: SIZE_OF_LONG + SIZE_OF_CHAR <= k < REQUEST_LENGTH ==> r[k] == 0
  {
    var b0 := Zeros(REQUEST_LENGTH);
    var b1 := PutLong(b0, 0, correlationId);
    var b2 := PutChar(b1, SIZE_OF_LONG, CharCode(GET));
    GetPutLong(b0, 0, correlationId);
    GetPutChar(b1, SIZE_OF_LONG, CharCode(GET));
    PutPreservesSlice(b1, SIZE_OF_LONG, EncodeChar(CharCode(GET)), 0, SIZE_OF_LONG);
    b2
  }

  /** The request of `setValue`: correlation id at 0, 's' at 8, the value at
      16. */
  function EncodeSetRequest(correlationId: Long, value: Long): (r: seq<byte>)
    ensures |r| == REQUEST_LENGTH
    ensures GetLong(r, 0) == Success(correlationId)
    ensures GetChar(r, SIZE_OF_LONG) == Success(CharCode(SET))
    ensures GetLong(r, SIZE_OF_LONG * 2) == Success(value)
    ensures forall k :: SIZE_OF_LONG + SIZE_OF_CHAR <= k < SIZE_OF_LONG * 2 ==> r[k] == 0
  {
    var b0 := Zeros(REQUEST_LENGTH);
    var b1 := PutLong(b0, 0, correlationId);
    var b2 := PutChar(b1, SIZE_OF_LONG, CharCode(SET));
    var b3 := PutLong(b2, SIZE_OF_LONG * 2, value);
    GetPutLong(b0, 0, correlationId);
    GetPutChar(b1, SIZE_OF_LONG, CharCode(SET));
    GetPutLong(b2, SIZE_OF_LONG * 2, value);
    PutPreservesSlice(b1, SIZE_OF_LONG, EncodeChar(CharCode(SET)), 0, SIZE_OF_LONG);
    PutPreservesSlice(b2, SIZE_OF_LONG * 2, EncodeLong(value), 0, SIZE_OF_LONG);
    PutPreservesSlice(b2, SIZE_OF_LONG * 2, EncodeLong(value), SIZE_OF_LONG, SIZE_OF_LONG + SIZE_OF_CHAR);
    b3
  }

  /** `onMessage`: the long at the offset becomes the last correlation id and
      the long after it the last value; nothing else is read. */
  function OnMessage(s: ClientState, f: Fragment): (r: Result<ClientState, Exception>)
    ensures r.Success? <==> Fits(f.buffer, f.offset, 2 * SIZE_OF_LONG)
    ensures r.Success? ==>
              && GetLong(f.buffer, f.offset) == Success(r.value.lastReceivedCorrelationId)
              && GetLong(f.buffer, f.offset + SIZE_OF_LONG) == Success(r.value.lastReceivedValue)
  {
    var correlationId :- GetLong(f.buffer, f.offset);
    var value :- GetLong(f.buffer, f.offset + SIZE_OF_LONG);
    Success(ClientState(correlationId, value))
  }

  /** The listener run over messages in delivery order; an exception thrown
      by the listener ends the poll. */
  function Receive(s: ClientState, fs: seq<Fragment>): Result<ClientState, Exception> {
    if |fs| == 0 then Success(s)
    else
      match Receive(s, fs[..|fs| - 1])
      case Failure(e) => Failure(e)
      case Success(t) => OnMessage(t, fs[|fs| - 1])
  }

  lemma {:induction false} ReceiveAppend(s: ClientState, a: seq<Fragment>, b: seq<Fragment>)
    ensures Receive(s, a + b) == (match Receive(s, a)
                                  case Failure(e) => Failure(e)
                                  case Success(t) => Receive(t, b))
  {
    if |b| == 0 {
      assert a + b == a;
    } else {
      assert (a + b)[..|a + b| - 1] == a + b[..|b| - 1];
      ReceiveAppend(s, a, b[..|b| - 1]);
    }
  }

  /** After at least one message, the state holds the correlation id and the
      value of the same message, the last one delivered. */
  lemma ReceiveRecordsLastMessage(s: ClientState, fs: seq<Fragment>)
    requires |fs| > 0 && Receive(s, fs).Success?
    ensures var t := Receive(s, fs).value; var f := fs[|fs| - 1];
            && GetLong(f.buffer, f.offset) == Success(t.lastReceivedCorrelationId)
            && GetLong(f.buffer, f.offset + SIZE_OF_LONG) == Success(t.lastReceivedValue)
  {
  }

  /** A response carrying this correlation id and value. */
  predicate Carries(f: Fragment, correlationId: Long, value: Long) {
    GetLong(f.buffer, f.offset) == Success(correlationId)
    && GetLong(f.buffer, f.offset + SIZE_OF_LONG) == Success(value)
  }

  /** A state that differs from the start was recorded from one delivered
      message, both fields together. */
  lemma {:induction false} ReceivedFromSomeMessage(s: ClientState, fs: seq<Fragment>)
    requires Receive(s, fs).Success?
    ensures var t := Receive(s, fs).value;
            t == s || exists i :: 0 <= i < |fs| && Carries(fs[i], t.lastReceivedCorrelationId, t.lastReceivedValue)
  {
    if |fs| > 0 {
      ReceiveRecordsLastMessage(s, fs);
      var t := Receive(s, fs).value;
      assert Carries(fs[|fs| - 1], t.lastReceivedCorrelationId, t.lastReceivedValue);
    }
  }

  // ------------------------------------------------------------ transport

  datatype Attempt = Attempt(offerResult: Long, egress: seq<Fragment>)

  /** The messages delivered by the polls of the given attempts, in order. */
  function Egress(attempts: seq<Attempt>): seq<Fragment> {
    if |attempts| == 0 then []
    else Egress(attempts[..|attempts| - 1]) + attempts[|attempts| - 1].egress
  }

  /** The messages delivered by the given polls, in order. */
  function Flatten(polls: seq<seq<Fragment>>): seq<Fragment> {
    if |polls| == 0 then [] else Flatten(polls[..|polls| - 1]) + polls[|polls| - 1]
  }

  lemma EgressStep(attempts: seq<Attempt>, k: nat)
    requires k < |attempts|
    ensures Egress(attempts[..k + 1]) == Egress(attempts[..k]) + attempts[k].egress
  {
    assert attempts[..k + 1][..k] == attempts[..k];
  }

  lemma FlattenStep(polls: seq<seq<Fragment>>, k: nat)
    requires k < |polls|
    ensures Flatten(polls[..k + 1]) == Flatten(polls[..k]) + polls[k]
  {
    assert polls[..k + 1][..k] == polls[..k];
  }

  /** Attempt n (counting from 1) is the first one `offer` accepted: it
      returned a non-negative result and every earlier one a negative one. */
  predicate AcceptedAt(attempts: seq<Attempt>, n: nat) {
    && 1 <= n <= |attempts|
    && attempts[n - 1].offerResult >= 0
    && (forall j :: 0 <= j < n - 1 ==> attempts[j].offerResult < 0)
  }

  datatype OfferOutcome =
    | Offered(state: ClientState, attempts: nat)
    | StillOffering(state: ClientState)
    | OfferThrew(error: Exception, attempts: nat)

  /** The `offer` loop: offer, idle, poll the egress, and go round again while
      the offer result was negative. */
  method Offer(s: ClientState, attempts: seq<Attempt>) returns (o: OfferOutcome)
    ensures o.Offered? ==>
              && 1 <= o.attempts <= |attempts|
              && attempts[o.attempts - 1].offerResult >= 0
              && (forall j :: 0 <= j < o.attempts - 1 ==> attempts[j].offerResult < 0)
              && Receive(s, Egress(attempts[..o.attempts])) == Success(o.state)
    ensures o.StillOffering? ==>
              && (forall j :: 0 <= j < |attempts| ==> attempts[j].offerResult < 0)
              && Receive(s, Egress(attempts)) == Success(o.state)
    ensures o.OfferThrew? ==>
              && 1 <= o.attempts <= |attempts|
              && (forall j :: 0 <= j < o.attempts - 1 ==> attempts[j].offerResult < 0)
              && Receive(s, Egress(attempts[..o.attempts])) == Failure(o.error)
  {
    var state := s;
    var k := 0;
    while k < |attempts|
      invariant 0 <= k <= |attempts|
      invariant forall j :: 0 <= j < k ==> attempts[j].offerResult < 0
      invariant Receive(s, Egress(attempts[..k])) == Success(state)
    {
      var result := attempts[k].offerResult;
      var polled := Receive(state, attempts[k].egress);
      EgressStep(attempts, k);
      ReceiveAppend(s, Egress(attempts[..k]), attempts[k].egress);
      if polled.Failure? {
        return OfferThrew(polled.error, k + 1);
      }
      state := polled.value;
      k := k + 1;
      if result >= 0 {
        return Offered(state, k);
      }
    }
    assert attempts[..k] == attempts;
    return StillOffering(state);
  }

  /** The state after the first j polls matches the awaited id. */
  predicate MatchesAfter(s: ClientState, polls: seq<seq<Fragment>>, j: nat, id: Long)
    requires j <= |polls|
  {
    var r := Receive(s, Flatten(polls[..j]));
    r.Success? && r.value.lastReceivedCorrelationId == id
  }

  datatype WaitOutcome =
    | Matched(state: ClientState, polls: nat)
    | Spinning(state: ClientState)
    | WaitThrew(error: Exception, polls: nat)

  /** `waitForCorrelationId`: poll until the last received correlation id is
      the awaited one. It returns at the first point, before any poll or after
      one, where the ids are equal; while they differ it keeps polling (the
      oracle running out means the Java loop would still be spinning). */
  method WaitForCorrelationId(s: ClientState, id: Long, polls: seq<seq<Fragment>>) returns (o: WaitOutcome)
    ensures o.Matched? ==>
              && o.polls <= |polls|
              && o.state.lastReceivedCorrelationId == id
              && Receive(s, Flatten(polls[..o.polls])) == Success(o.state)
              && (forall j :: 0 <= j < o.polls ==> !MatchesAfter(s, polls, j, id))
    ensures o.Spinning? ==>
              && Receive(s, Flatten(polls)) == Success(o.state)
              && (forall j :: 0 <= j <= |polls| ==> !MatchesAfter(s, polls, j, id))
    ensures o.WaitThrew? ==>
              && 1 <= o.polls <= |polls|
              && Receive(s, Flatten(polls[..o.polls])) == Failure(o.error)
              && (forall j :: 0 <= j < o.polls ==> !MatchesAfter(s, polls, j, id))
  {
    var state := s;
    var k := 0;
    assert polls[..0] == [];
    while state.lastReceivedCorrelationId != id
      invariant 0 <= k <= |polls|
      invariant Receive(s, Flatten(polls[..k])) == Success(state)
      invariant forall j :: 0 <= j < k ==> !MatchesAfter(s, polls, j, id)
      decreases |polls| - k
    {
      assert !MatchesAfter(s, polls, k, id);
      if k == |polls| {
        assert polls[..k] == polls;
        return Spinning(state);
      }
      var polled := Receive(state, polls[k]);
      FlattenStep(polls, k);
      ReceiveAppend(s, Flatten(polls[..k]), polls[k]);
      if polled.Failure? {
        return WaitThrew(polled.error, k + 1);
      }
      state := polled.value;
      k := k + 1;
    }
    return Matched(state, k);
  }

  /** What a call that returned has seen: the offer loop stopped at the first
      accepted attempt n, then the wait made m polls, and t is the state all
      those messages leave, in delivery order. Its correlation id is the
      awaited one and no earlier check of the wait found it. */
  predicate RecordedAfter(s: ClientState, attempts: seq<Attempt>, polls: seq<seq<Fragment>>,
                          n: nat, m: nat, id: Long, t: ClientState)
  {
    && AcceptedAt(attempts, n)
    && m <= |polls|
    && Receive(s, Egress(attempts[..n])).Success?
    && Receive(s, Egress(attempts[..n]) + Flatten(polls[..m])) == Success(t)
    && t.lastReceivedCorrelationId == id
    && (forall j :: 0 <= j < m ==> !MatchesAfter(Receive(s, Egress(attempts[..n])).value, polls, j, id))
  }

  /** A call that returns has exactly one possible result: the accepted
      attempt, the number of polls and so the state (and value) returned are
      all fixed by the oracle. */
  lemma RecordedAfterUnique(s: ClientState, attempts: seq<Attempt>, polls: seq<seq<Fragment>>, id: Long,
                            n1: nat, m1: nat, t1: ClientState, n2: nat, m2: nat, t2: ClientState)
    requires RecordedAfter(s, attempts, polls, n1, m1, id, t1)
    requires RecordedAfter(s, attempts, polls, n2, m2, id, t2)
    ensures n1 == n2 && m1 == m2 && t1 == t2
  {
    AcceptedAtUnique(attempts, n1, n2);
    var offered := Receive(s, Egress(attempts[..n1])).value;
    ReceiveAppend(s, Egress(attempts[..n1]), Flatten(polls[..m1]));
    ReceiveAppend(s, Egress(attempts[..n1]), Flatten(polls[..m2]));
    if m1 < m2 {
      assert MatchesAfter(offered, polls, m1, id);
      assert false;
    } else if m2 < m1 {
      assert MatchesAfter(offered, polls, m2, id);
      assert false;
    }
  }

  lemma AcceptedAtUnique(attempts: seq<Attempt>, n1: nat, n2: nat)
    requires AcceptedAt(attempts, n1) && AcceptedAt(attempts, n2)
    ensures n1 == n2
  {
  }

  datatype CallOutcome =
    | Returned(state: ClientState, value: Long, request: seq<byte>)
    | Blocked(state: ClientState)
    | Threw(error: Exception)

  /** Offer a request, then wait for its correlation id and return the value
      recorded with it. */
  method Call(s: ClientState, request: seq<byte>, correlationId: Long,
              attempts: seq<Attempt>, polls: seq<seq<Fragment>>) returns (o: CallOutcome)
    ensures o.Returned? ==>
              && o.request == request
              && o.state.lastReceivedCorrelationId == correlationId
              && o.value == o.state.lastReceivedValue
    ensures o.Returned? ==> exists n :: AcceptedAt(attempts, n)
    ensures o.Returned? ==> exists n, m :: RecordedAfter(s, attempts, polls, n, m, correlationId, o.state)
    ensures o.Returned? && s.lastReceivedCorrelationId != correlationId ==>
              exists f :: f in Egress(attempts) + Flatten(polls) && Carries(f, correlationId, o.value)
  {
    var offered := Offer(s, attempts);
    match offered
    case OfferThrew(e, _) => return Threw(e);
    case StillOffering(t) => return Blocked(t);
    case Offered(t, n) =>
      var waited := WaitForCorrelationId(t, correlationId, polls);
      match waited
      case WaitThrew(e, _) => return Threw(e);
      case Spinning(u) => return Blocked(u);
      case Matched(u, m) =>
        assert AcceptedAt(attempts, n);
        o := Returned(u, u.lastReceivedValue, request);
        ReceiveAppend(s, Egress(attempts[..n]), Flatten(polls[..m]));
        assert RecordedAfter(s, attempts, polls, n, m, correlationId, o.state);
        if s.lastReceivedCorrelationId != correlationId {
          ghost var delivered := Egress(attempts[..n]) + Flatten(polls[..m]);
          ReceiveAppend(s, Egress(attempts[..n]), Flatten(polls[..m]));
          ReceivedFromSomeMessage(s, delivered);
          ghost var i :| 0 <= i < |delivered| && Carries(delivered[i], correlationId, o.value);
          DeliveredInOracle(attempts, n, polls, m, i);
        }
  }

  /** A message delivered by a prefix of the oracle is one of the oracle's. */
  lemma DeliveredInOracle(attempts: seq<Attempt>, n: nat, polls: seq<seq<Fragment>>, m: nat, i: nat)
    requires n <= |attempts| && m <= |polls|
    requires i < |Egress(attempts[..n]) + Flatten(polls[..m])|
    ensures (Egress(attempts[..n]) + Flatten(polls[..m]))[i] in Egress(attempts) + Flatten(polls)
  {
    EgressPrefix(attempts, n);
    FlattenPrefix(polls, m);
    var d := Egress(attempts[..n]) + Flatten(polls[..m]);
    if i < |Egress(attempts[..n])| {
      assert d[i] == Egress(attempts)[i];
    } else {
      assert d[i] == Flatten(polls)[i - |Egress(attempts[..n])|];
    }
  }

  lemma {:induction false} EgressPrefix(attempts: seq<Attempt>, n: nat)
    requires n <= |attempts|
    ensures Egress(attempts[..n]) <= Egress(attempts)
    decreases |attempts|
  {
    if n < |attempts| {
      var init := attempts[..|attempts| - 1];
      assert attempts[..n] == init[..n];
      EgressPrefix(init, n);
    } else {
      assert attempts[..n] == attempts;
    }
  }

  lemma {:induction false} FlattenPrefix(polls: seq<seq<Fragment>>, m: nat)
    requires m <= |polls|
    ensures Flatten(polls[..m]) <= Flatten(polls)
    decreases |polls|
  {
    if m < |polls| {
      var init := polls[..|polls| - 1];
      assert polls[..m] == init[..m];
      FlattenPrefix(init, m);
    } else {
      assert polls[..m] == polls;
    }
  }

  /** `getValue`. */
  method GetValue(s: ClientState, correlationId: Long, attempts: seq<Attempt>, polls: seq<seq<Fragment>>)
    returns (o: CallOutcome)
    ensures o.Returned? ==>
              && GetLong(o.request, 0) == Success(correlationId)
              && GetChar(o.request, SIZE_OF_LONG) == Success(CharCode(GET))
              && o.state.lastReceivedCorrelationId == correlationId
              && o.value == o.state.lastReceivedValue
    ensures o.Returned? ==> exists n :: AcceptedAt(attempts, n)
    ensures o.Returned? ==> exists n, m :: RecordedAfter(s, attempts, polls, n, m, correlationId, o.state)
    ensures o.Returned? && s.lastReceivedCorrelationId != correlationId ==>
              exists f :: f in Egress(attempts) + Flatten(polls) && Carries(f, correlationId, o.value)
  {
    var buffer := EncodeGetRequest(correlationId);
    o := Call(s, buffer, correlationId, attempts, polls);
  }

  /** `setValue`: the value returned is the one the cluster answered with. */
  method SetValue(s: ClientState, correlationId: Long, value: Long, attempts: seq<Attempt>, polls: seq<seq<Fragment>>)
    returns (o: CallOutcome)
    ensures o.Returned? ==>
              && GetLong(o.request, 0) == Success(correlationId)
              && GetChar(o.request, SIZE_OF_LONG) == Success(CharCode(SET))
              && GetLong(o.request, SIZE_OF_LONG * 2) == Success(value)
              && o.state.lastReceivedCorrelationId == correlationId
              && o.value == o.state.lastReceivedValue
    ensures o.Returned? ==> exists n :: AcceptedAt(attempts, n)
    ensures o.Returned? ==> exists n, m :: RecordedAfter(s, attempts, polls, n, m, correlationId, o.state)
    ensures o.Returned? && s.lastReceivedCorrelationId != correlationId ==>
              exists f :: f in Egress(attempts) + Flatten(polls) && Carries(f, correlationId, o.value)
  {
    var buffer := EncodeSetRequest(correlationId, value);
    o := Call(s, buffer, correlationId, attempts, polls);
  }
}

=== FILE: cluster_node_config.dfy ===
/** Port derivation and the topology strings every node and client computes
    from the ordered host list (index = node id). */
module ClusterNodeConfig {
  import opened JavaTypes
  import opened Wrappers
  import opened Strings

  const PORT_BASE: Int32 := 9000
  const PORTS_PER_NODE: Int32 := 100
  const ARCHIVE_CONTROL_PORT_OFFSET: Int32 := 1
  const CLIENT_FACING_PORT_OFFSET: Int32 := 2
  const MEMBER_FACING_PORT_OFFSET: Int32 := 3
  const LOG_PORT_OFFSET: Int32 := 4
  const TRANSFER_PORT_OFFSET: Int32 := 5

  /** The largest node id whose ports stay below 2^31 for every offset under
      PORTS_PER_NODE, so that `calculatePort` does not overflow. */
  const MAX_NODE_ID: int := (INT_MAX - PORT_BASE - (PORTS_PER_NODE - 1)) / PORTS_PER_NODE

  /** The channel offsets in the order a member record lists them. */
  const MEMBER_CHANNEL_OFFSETS: seq<Int32> := [
    CLIENT_FACING_PORT_OFFSET, MEMBER_FACING_PORT_OFFSET, LOG_PORT_OFFSET,
    TRANSFER_PORT_OFFSET, ARCHIVE_CONTROL_PORT_OFFSET]

  /** The five channels have distinct offsets, all strictly inside one node's
      block of ports, and a member record lists each of them once. */
  lemma ChannelOffsetsDistinct()
    ensures |MEMBER_CHANNEL_OFFSETS| == 5
    ensures forall i, j :: 0 <= i < j < 5 ==> MEMBER_CHANNEL_OFFSETS[i] != MEMBER_CHANNEL_OFFSETS[j]
    ensures forall i :: 0 <= i < 5 ==> 1 <= MEMBER_CHANNEL_OFFSETS[i] <= 5 < PORTS_PER_NODE
    ensures ARCHIVE_CONTROL_PORT_OFFSET in MEMBER_CHANNEL_OFFSETS
  {
  }

  /** `calculatePort`, in Java `int` arithmetic: the sum modulo 2^32, which
      is the plain sum whenever that fits in an `int`. */
  function CalculatePort(nodeId: Int32, offset: Int32): (port: Int32)
    ensures (port - (PORT_BASE + nodeId * PORTS_PER_NODE + offset)) % 0x1_0000_0000 == 0
    ensures INT_MIN <= PORT_BASE + nodeId * PORTS_PER_NODE + offset <= INT_MAX ==>
              port == PORT_BASE + nodeId * PORTS_PER_NODE + offset
  {
    WrapIntProperties(PORT_BASE + nodeId * PORTS_PER_NODE + offset);
    WrapInt(PORT_BASE + nodeId * PORTS_PER_NODE + offset)
  }

  /** Without overflow, the port is the plain arithmetic sum, and node id
      and offset can be read back from it. */
  lemma CalculatePortArithmetic(nodeId: Int32, offset: Int32)
    requires 0 <= nodeId <= MAX_NODE_ID && 0 <= offset < PORTS_PER_NODE
    ensures CalculatePort(nodeId, offset) == 9000 + nodeId * 100 + offset
    ensures (CalculatePort(nodeId, offset) - PORT_BASE) / PORTS_PER_NODE == nodeId
    ensures (CalculatePort(nodeId, offset) - PORT_BASE) % PORTS_PER_NODE == offset
  {
    WrapIntProperties(PORT_BASE + nodeId * PORTS_PER_NODE + offset);
  }

  /** No two (node, channel) pairs of a topology share a port. */
  lemma PortsDistinct(a: Int32, x: Int32, b: Int32, y: Int32)
    requires 0 <= a <= MAX_NODE_ID && 0 <= b <= MAX_NODE_ID
    requires x in MEMBER_CHANNEL_OFFSETS && y in MEMBER_CHANNEL_OFFSETS
    requires a != b || x != y
    ensures CalculatePort(a, x) != CalculatePort(b, y)
  {
    CalculatePortArithmetic(a, x);
    CalculatePortArithmetic(b, y);
  }

  // ------------------------------------------------------- per-node lists

  /** One string per host, in list order; the host at index i is node i, as
      in both loops over the host names. */
  function PerNode(f: (Int32, string) -> string, hostnames: seq<string>): (out: seq<string>)
    requires |hostnames| <= INT_MAX
    ensures |out| == |hostnames|
    decreases |hostnames|
  {
    if |hostnames| == 0 then []
    else PerNode(f, hostnames[..|hostnames| - 1]) + [f(|hostnames| - 1, hostnames[|hostnames| - 1])]
  }

  lemma {:induction false} PerNodeAt(f: (Int32, string) -> string, hostnames: seq<string>, i: nat)
    requires i < |hostnames| <= INT_MAX
    ensures PerNode(f, hostnames)[i] == f(i, hostnames[i])
    decreases |hostnames|
  {
    var n := |hostnames| - 1;
    if i < n {
      PerNodeAt(f, hostnames[..n], i);
    }
  }

  lemma PerNodeSnoc(f: (Int32, string) -> string, hostnames: seq<string>, host: string)
    requires |hostnames| < INT_MAX
    ensures PerNode(f, hostnames + [host]) == PerNode(f, hostnames) + [f(|hostnames|, host)]
  {
    assert (hostnames + [host])[..|hostnames|] == hostnames;
  }

  lemma PerNodePrefix(f: (Int32, string) -> string, hostnames: seq<string>, i: nat)
    requires i < |hostnames| <= INT_MAX
    ensures PerNode(f, hostnames[..i + 1]) == PerNode(f, hostnames[..i]) + [f(i, hostnames[i])]
  {
    assert hostnames[..i + 1][..i] == hostnames[..i];
  }

  // ------------------------------------------------------ ingress endpoints

  /** `i=host:port` for the client-facing port of node i. */
  function IngressEntry(nodeId: Int32, host: string): string {
    IntToString(nodeId) + "=" + host + ":" + IntToString(CalculatePort(nodeId, CLIENT_FACING_PORT_OFFSET))
  }

  /** The entries of all hosts, in list order: entry i is for node i. */
  function IngressEntries(hostnames: seq<string>): (es: seq<string>)
    requires |hostnames| <= INT_MAX
    ensures |es| == |hostnames|
  {
    PerNode(IngressEntry, hostnames)
  }

  lemma IngressEntriesAt(hostnames: seq<string>, i: nat)
    requires i < |hostnames| <= INT_MAX
    ensures IngressEntries(hostnames)[i] == IngressEntry(i, hostnames[i])
  {
    PerNodeAt(IngressEntry, hostnames, i);
  }

  lemma IngressEntriesSnoc(hostnames: seq<string>, host: string)
    requires |hostnames| < INT_MAX
    ensures IngressEntries(hostnames + [host]) == IngressEntries(hostnames) + [IngressEntry(|hostnames|, host)]
  {
    PerNodeSnoc(IngressEntry, hostnames, host);
  }

  lemma IngressEntriesPrefix(hostnames: seq<string>, i: nat)
    requires i < |hostnames| <= INT_MAX
    ensures IngressEntries(hostnames[..i + 1]) == IngressEntries(hostnames[..i]) + [IngressEntry(i, hostnames[i])]
  {
    PerNodePrefix(IngressEntry, hostnames, i);
  }

  /** The comma-terminated entries of the first i + 1 hosts extend those of
      the first i by host i's entry and a comma. */
  lemma IngressEndpointsStep(hostnames: seq<string>, i: nat)
    requires i < |hostnames| <= INT_MAX
    ensures Terminated(IngressEntries(hostnames[..i + 1]), ',')
         == Terminated(IngressEntries(hostnames[..i]), ',') + IngressEntry(i, hostnames[i]) + ","
  {
    IngressEntriesPrefix(hostnames, i);
    TerminatedSnoc(IngressEntries(hostnames[..i]), IngressEntry(i, hostnames[i]), ',');
  }

  /** One iteration of the `ingressEndpoints` loop: `id=host:port,` appended
      to sb. */
  method AppendIngressEntry(sb0: string, nodeId: Int32, h: string) returns (sb: string)
    ensures sb == sb0 + IngressEntry(nodeId, h) + ","
  {
    var id := IntToString(nodeId);
    var port := IntToString(CalculatePort(nodeId, CLIENT_FACING_PORT_OFFSET));
    sb := sb0 + id + "=";
    sb := sb + h + ":" + port;
    assert sb == sb0 + (id + "=" + h + ":" + port);
    sb := sb + ",";
  }

  /** `ingressEndpoints`: every entry followed by ',', then the last character
      cut off with `setLength(length - 1)`, which throws on an empty list. */
  method IngressEndpoints(hostnames: seq<string>) returns (r: Result<string, Exception>)
    requires |hostnames| <= INT_MAX
    ensures r.Failure? <==> |hostnames| == 0
    ensures r.Failure? ==> r.error == StringIndexOutOfBoundsException(-1)
    ensures r.Success? ==> r.value == Join(IngressEntries(hostnames), ',')
  {
    var sb := "";
    var i := 0;
    while i < |hostnames|
      invariant 0 <= i <= |hostnames|
      invariant sb == Terminated(IngressEntries(hostnames[..i]), ',')
    {
      IngressEndpointsStep(hostnames, i);
      sb := AppendIngressEntry(sb, i, hostnames[i]);
      i := i + 1;
    }
    assert hostnames[..i] == hostnames;
    if |sb| - 1 < 0 {
      return Failure(StringIndexOutOfBoundsException(|sb| - 1));
    }
    TerminatedIsJoinPlusSeparator(IngressEntries(hostnames), ',');
    r := Success(sb[..|sb| - 1]);
  }

  /** Adding a host appends one entry after a comma, so entries appear in
      node-id order. */
  lemma IngressEndpointsAppend(hostnames: seq<string>, host: string)
    requires 1 <= |hostnames| < INT_MAX
    ensures Join(IngressEntries(hostnames + [host]), ',')
         == Join(IngressEntries(hostnames), ',') + "," + IngressEntry(|hostnames|, host)
  {
    IngressEntriesSnoc(hostnames, host);
    JoinSnoc(IngressEntries(hostnames), IngressEntry(|hostnames|, host), ',');
  }

  lemma IngressEntryCommas(nodeId: Int32, host: string)
    requires Count(host, ',') == 0
    ensures Count(IngressEntry(nodeId, host), ',') == 0
  {
    var id := IntToString(nodeId);
    var port := IntToString(CalculatePort(nodeId, CLIENT_FACING_PORT_OFFSET));
    CountIntToString(nodeId, ',');
    CountIntToString(CalculatePort(nodeId, CLIENT_FACING_PORT_OFFSET), ',');
    CountAbsent("=", ',');
    CountAbsent(":", ',');
    CountAppend(id, "=", ',');
    CountAppend(id + "=", host, ',');
    CountAppend(id + "=" + host, ":", ',');
    CountAppend(id + "=" + host + ":", port, ',');
  }

  /** With comma-free host names the result holds exactly n - 1 commas: one
      between each pair of entries and none at the end. */
  lemma IngressEndpointsCommas(hostnames: seq<string>)
    requires 1 <= |hostnames| <= INT_MAX
    requires forall i :: 0 <= i < |hostnames| ==> Count(hostnames[i], ',') == 0
    ensures Count(Join(IngressEntries(hostnames), ','), ',') == |hostnames| - 1
  {
    var es := IngressEntries(hostnames);
    forall i | 0 <= i < |es|
      ensures Count(es[i], ',') == 0
    {
      IngressEntriesAt(hostnames, i);
      IngressEntryCommas(i, hostnames[i]);
    }
    CountJoin(es, ',');
  }

  // -------------------------------------------------------- cluster members

  /** One channel address of a member record: `,host:port`. */
  function Address(host: string, port: Int32): string {
    "," + host + ":" + IntToString(port)
  }

  /** The node id followed by the address of each of the given channels, in
      order. */
  function RecordFields(nodeId: Int32, host: string, offsets: seq<Int32>): string {
    if |offsets| == 0 then IntToString(nodeId)
    else RecordFields(nodeId, host, offsets[..|offsets| - 1])
         + Address(host, CalculatePort(nodeId, offsets[|offsets| - 1]))
  }

  /** One member record: the node id, the node's address on every channel in
      MEMBER_CHANNEL_OFFSETS order, and the '|' terminator. */
  function MemberRecord(nodeId: Int32, host: string): string {
    RecordFields(nodeId, host, MEMBER_CHANNEL_OFFSETS) + "|"
  }

  /** The records of all hosts, in list order: record i is for node i. */
  function MemberRecords(hostnames: seq<string>): (rs: seq<string>)
    requires |hostnames| <= INT_MAX
    ensures |rs| == |hostnames|
  {
    PerNode(MemberRecord, hostnames)
  }

  lemma MemberRecordsAt(hostnames: seq<string>, i: nat)
    requires i < |hostnames| <= INT_MAX
    ensures MemberRecords(hostnames)[i] == MemberRecord(i, hostnames[i])
  {
    PerNodeAt(MemberRecord, hostnames, i);
  }

  lemma MemberRecordsSnoc(hostnames: seq<string>, host: string)
    requires |hostnames| < INT_MAX
    ensures MemberRecords(hostnames + [host]) == MemberRecords(hostnames) + [MemberRecord(|hostnames|, host)]
  {
    PerNodeSnoc(MemberRecord, hostnames, host);
  }

  lemma MemberRecordsPrefix(hostnames: seq<string>, i: nat)
    requires i < |hostnames| <= INT_MAX
    ensures MemberRecords(hostnames[..i + 1]) == MemberRecords(hostnames[..i]) + [MemberRecord(i, hostnames[i])]
  {
    PerNodePrefix(MemberRecord, hostnames, i);
  }

  /** One more channel address after the first k. */
  lemma RecordFieldsStep(nodeId: Int32, host: string, k: nat)
    requires k < |MEMBER_CHANNEL_OFFSETS|
    ensures RecordFields(nodeId, host, MEMBER_CHANNEL_OFFSETS[..k + 1])
         == RecordFields(nodeId, host, MEMBER_CHANNEL_OFFSETS[..k])
            + Address(host, CalculatePort(nodeId, MEMBER_CHANNEL_OFFSETS[k]))
  {
    assert MEMBER_CHANNEL_OFFSETS[..k + 1][..k] == MEMBER_CHANNEL_OFFSETS[..k];
  }

  /** One iteration of the `clusterMembers` loop: the node id, the five
      channel addresses and the terminator appended to sb. */
  method AppendMemberRecord(sb0: string, nodeId: Int32, h: string) returns (sb: string)
    ensures sb == sb0 + MemberRecord(nodeId, h)
  {
    var os := MEMBER_CHANNEL_OFFSETS;
    sb := sb0 + IntToString(nodeId);
    assert sb == sb0 + RecordFields(nodeId, h, os[..0]);
    var k := 0;
    while k < |os|
      invariant 0 <= k <= |os|
      invariant sb == sb0 + RecordFields(nodeId, h, os[..k])
    {
      sb := AppendChannel(sb, sb0, nodeId, h, k);
      k := k + 1;
    }
    assert os[..k] == os;
    sb := sb + "|";
  }

  /** `.append(',').append(host).append(':').append(port)` for channel k of
      the record being built after sb0. */
  method AppendChannel(sb: string, ghost sb0: string, nodeId: Int32, h: string, k: nat) returns (sb': string)
    requires k < |MEMBER_CHANNEL_OFFSETS|
    requires sb == sb0 + RecordFields(nodeId, h, MEMBER_CHANNEL_OFFSETS[..k])
    ensures sb' == sb0 + RecordFields(nodeId, h, MEMBER_CHANNEL_OFFSETS[..k + 1])
  {
    var address := "," + h + ":" + IntToString(CalculatePort(nodeId, MEMBER_CHANNEL_OFFSETS[k]));
    sb' := sb + address;
    RecordFieldsStep(nodeId, h, k);
  }

  /** `clusterMembers`: every record terminated by '|'; the trailing '|' is
      kept and an empty list gives the empty string. */
  method ClusterMembers(hostnames: seq<string>) returns (r: string)
    requires |hostnames| <= INT_MAX
    ensures r == Concat(MemberRecords(hostnames))
  {
    var sb := "";
    var i := 0;
    while i < |hostnames|
      invariant 0 <= i <= |hostnames|
      invariant sb == Concat(MemberRecords(hostnames[..i]))
    {
      ClusterMembersStep(hostnames, i);
      sb := AppendMemberRecord(sb, i, hostnames[i]);
      i := i + 1;
    }
    assert hostnames[..i] == hostnames;
    r := sb;
  }

  /** The member string of the first i + 1 hosts extends that of the first i
      by host i's record. */
  lemma ClusterMembersStep(hostnames: seq<string>, i: nat)
    requires i < |hostnames| <= INT_MAX
    ensures Concat(MemberRecords(hostnames[..i + 1]))
         == Concat(MemberRecords(hostnames[..i])) + MemberRecord(i, hostnames[i])
  {
    MemberRecordsPrefix(hostnames, i);
    ConcatSnoc(MemberRecords(hostnames[..i]), MemberRecord(i, hostnames[i]));
  }

  /** A record ends with its terminator and holds no other '|' when the host
      name holds none. */
  lemma MemberRecordBars(nodeId: Int32, host: string)
    requires Count(host, '|') == 0
    ensures Count(MemberRecord(nodeId, host), '|') == 1
    ensures MemberRecord(nodeId, host)[|MemberRecord(nodeId, host)| - 1] == '|'
  {
    var fields := RecordFields(nodeId, host, MEMBER_CHANNEL_OFFSETS);
    RecordFieldsBars(nodeId, host, MEMBER_CHANNEL_OFFSETS);
    CountAppend(fields, "|", '|');
    var bar: string := "|";
    assert bar[..0] == "";
  }

  lemma {:induction false} RecordFieldsBars(nodeId: Int32, host: string, offsets: seq<Int32>)
    requires Count(host, '|') == 0
    ensures Count(RecordFields(nodeId, host, offsets), '|') == 0
  {
    if |offsets| == 0 {
      CountIntToString(nodeId, '|');
    } else {
      var init := RecordFields(nodeId, host, offsets[..|offsets| - 1]);
      var port := CalculatePort(nodeId, offsets[|offsets| - 1]);
      RecordFieldsBars(nodeId, host, offsets[..|offsets| - 1]);
      CountIntToString(port, '|');
      CountAbsent(",", '|');
      CountAbsent(":", '|');
      CountAppend(",", host, '|');
      CountAppend("," + host, ":", '|');
      CountAppend("," + host + ":", IntToString(port), '|');
      CountAppend(init, Address(host, port), '|');
    }
  }

  /** One record per host: with '|'-free host names the member string holds
      exactly one '|' per host, and a non-empty one ends with '|'. */
  lemma ClusterMembersShape(hostnames: seq<string>)
    requires |hostnames| <= INT_MAX
    requires forall i :: 0 <= i < |hostnames| ==> Count(hostnames[i], '|') == 0
    ensures Count(Concat(MemberRecords(hostnames)), '|') == |hostnames|
    ensures |hostnames| == 0 <==> Concat(MemberRecords(hostnames)) == ""
    ensures |hostnames| > 0 ==> var s := Concat(MemberRecords(hostnames)); s[|s| - 1] == '|'
  {
    var rs := MemberRecords(hostnames);
    forall i | 0 <= i < |rs|
      ensures Count(rs[i], '|') == 1
    {
      MemberRecordsAt(hostnames, i);
      MemberRecordBars(i, hostnames[i]);
    }
    CountConcat(rs, '|', 1);
    if |hostnames| > 0 {
      MemberRecordsAt(hostnames, |rs| - 1);
      MemberRecordBars(|rs| - 1, hostnames[|rs| - 1]);
    }
  }

  /** Adding a host appends its record after the existing ones. */
  lemma ClusterMembersAppend(hostnames: seq<string>, host: string)
    requires |hostnames| < INT_MAX
    ensures Concat(MemberRecords(hostnames + [host]))
         == Concat(MemberRecords(hostnames)) + MemberRecord(|hostnames|, host)
  {
    MemberRecordsSnoc(hostnames, host);
    ConcatSnoc(MemberRecords(hostnames), MemberRecord(|hostnames|, host));
  }

  // ------------------------------------------------------------ directories

  /** `File.separator` on the POSIX hosts the shared-memory paths are for. */
  const SEPARATOR: string := "/"
  const SHM_ROOT: string := "/dev/shm"

  /** `shmDirForName`. */
  function ShmDirForName(name: string): (path: string)
    ensures |path| == |SHM_ROOT| + |SEPARATOR| + |name|
    ensures path[..9] == "/dev/shm/" && path[9..] == name
  {
    SHM_ROOT + SEPARATOR + name
  }

  /** Distinct names give distinct directories. */
  lemma ShmDirForNameInjective(a: string, b: string)
    requires ShmDirForName(a) == ShmDirForName(b)
    ensures a == b
  {
    assert a == ShmDirForName(a)[9..];
  }
}

=== FILE: clustered_service.dfy ===
/** The clustered service: on every committed session message it decodes the
    request, applies it to its register and answers with the correlation id,
    the register's value and its own member id. The cluster handle's
    `memberId()` is a parameter. */
module ClusteredService {
  import opened JavaTypes
  import opened Wrappers
  import opened Bytes
  import opened MessageTypes
  import opened StateMachine

  /** Request layout: correlation id (long) at 0, kind tag (char) at 8, value
      (long, SET only) at 16. */
  const CORRELATION_ID_POSITION: nat := 0
  const MESSAGE_TYPE_POSITION: nat := SIZE_OF_LONG
  const VALUE_POSITION: nat := SIZE_OF_LONG * 2

  /** Response layout: correlation id (long) at 0, value (long) at 8, member
      id (int) at 16. */
  const RESPONSE_VALUE_POSITION: nat := SIZE_OF_LONG
  const RESPONSE_MEMBER_ID_POSITION: nat := SIZE_OF_LONG * 2
  const RESPONSE_LENGTH: nat := SIZE_OF_LONG * 2 + SIZE_OF_INT

  /** A decoded request. */
  datatype Command = Get(correlationId: Long) | Set(correlationId: Long, value: Long) {
    function Kind(): MessageType {
      if Get? then GET else SET
    }
  }

  /** The decoding half of `onSessionMessage`, in the order the reads happen:
      the correlation id, the tag (which `fromCode` may reject), and for a SET
      the value. The first read that does not fit, or an unknown tag, throws. */
  function DecodeRequest(f: Fragment): (r: Result<Command, Exception>)
    ensures r.Success? <==>
              && Fits(f.buffer, f.offset, SIZE_OF_LONG + SIZE_OF_CHAR)
              && FromCode(GetChar(f.buffer, f.offset + MESSAGE_TYPE_POSITION).value).Success?
              && (GetChar(f.buffer, f.offset + MESSAGE_TYPE_POSITION).value == SET_CODE ==>
                    Fits(f.buffer, f.offset + VALUE_POSITION, SIZE_OF_LONG))
    ensures r.Success? ==>
              && GetLong(f.buffer, f.offset) == Success(r.value.correlationId)
              && GetChar(f.buffer, f.offset + MESSAGE_TYPE_POSITION) == Success(CharCode(r.value.Kind()))
              && (r.value.Set? ==> GetLong(f.buffer, f.offset + VALUE_POSITION) == Success(r.value.value))
    ensures !Fits(f.buffer, f.offset, SIZE_OF_LONG) ==> r == Failure(OutOfBounds(f.buffer, f.offset, SIZE_OF_LONG))
  {
    var correlationId :- GetLong(f.buffer, f.offset);
    var code :- GetChar(f.buffer, f.offset + MESSAGE_TYPE_POSITION);
    var messageType :- FromCode(code);
    match messageType
    case GET => Success(Get(correlationId))
    case SET =>
      var valueToSet :- GetLong(f.buffer, f.offset + VALUE_POSITION);
      Success(Set(correlationId, valueToSet))
  }

  /** The dispatch of `onSessionMessage`: a GET leaves the register alone, a
      SET overwrites it. */
  function Apply(m: ReplicatedStateMachine, c: Command): (m': ReplicatedStateMachine)
    ensures c.Get? ==> m' == m
    ensures c.Set? ==> GetValue(m') == c.value
  {
    match c
    case Get(_) => m
    case Set(_, v) => SetValue(m, v)
  }

  /** The three `put`s into the (zeroed) response buffer. */
  function EncodeResponse(correlationId: Long, value: Long, memberId: Int32): (r: seq<byte>)
    ensures |r| == RESPONSE_LENGTH
    ensures GetLong(r, 0) == Success(correlationId)
    ensures GetLong(r, RESPONSE_VALUE_POSITION) == Success(value)
    ensures GetInt(r, RESPONSE_MEMBER_ID_POSITION) == Success(memberId)
  {
    var b0 := Zeros(RESPONSE_LENGTH);
    var b1 := PutLong(b0, 0, correlationId);
    var b2 := PutLong(b1, RESPONSE_VALUE_POSITION, value);
    var b3 := PutInt(b2, RESPONSE_MEMBER_ID_POSITION, memberId);
    GetPutLong(b0, 0, correlationId);
    GetPutLong(b1, RESPONSE_VALUE_POSITION, value);
    GetPutInt(b2, RESPONSE_MEMBER_ID_POSITION, memberId);
    PutPreservesSlice(b1, RESPONSE_VALUE_POSITION, EncodeLong(value), 0, SIZE_OF_LONG);
    PutPreservesSlice(b2, RESPONSE_MEMBER_ID_POSITION, EncodeInt(memberId), 0, SIZE_OF_LONG);
    PutPreservesSlice(b2, RESPONSE_MEMBER_ID_POSITION, EncodeInt(memberId), RESPONSE_VALUE_POSITION, RESPONSE_VALUE_POSITION + SIZE_OF_LONG);
    b3
  }

  /** What one call of `onSessionMessage` leaves behind: the new register and
      the one response offered on the session. */
  datatype Step = Step(machine: ReplicatedStateMachine, response: seq<byte>)

  /** `onSessionMessage`. A request that fails to decode throws before any
      mutation or offer; otherwise the command is applied and exactly one
      response, built after the update, is offered. */
  function OnSessionMessage(m: ReplicatedStateMachine, memberId: Int32, f: Fragment): (r: Result<Step, Exception>)
    ensures r.Success? <==> DecodeRequest(f).Success?
    ensures r.Failure? ==> r.error == DecodeRequest(f).error
    ensures r.Success? ==>
              var c := DecodeRequest(f).value;
              && (c.Get? ==> r.value.machine == m)
              && (c.Set? ==> GetValue(r.value.machine) == c.value)
              && |r.value.response| == RESPONSE_LENGTH
              && GetLong(r.value.response, 0) == Success(c.correlationId)
              && GetLong(r.value.response, RESPONSE_VALUE_POSITION) == Success(GetValue(r.value.machine))
              && GetInt(r.value.response, RESPONSE_MEMBER_ID_POSITION) == Success(memberId)
  {
    var command :- DecodeRequest(f);
    var m' := Apply(m, command);
    Success(Step(m', EncodeResponse(command.correlationId, GetValue(m'), memberId)))
  }

  /** An unknown tag is rejected by `fromCode` with the tag in the exception:
      the register is not touched and nothing is offered, whatever follows
      the tag in the buffer. */
  lemma UnknownTagRejected(m: ReplicatedStateMachine, memberId: Int32, f: Fragment)
    requires Fits(f.buffer, f.offset, SIZE_OF_LONG + SIZE_OF_CHAR)
    requires GetChar(f.buffer, f.offset + MESSAGE_TYPE_POSITION).value !in {GET_CODE, SET_CODE}
    ensures OnSessionMessage(m, memberId, f)
         == Failure(IllegalStateException(GetChar(f.buffer, f.offset + MESSAGE_TYPE_POSITION).value))
    ensures Deliver(m, memberId, f).0 == m && Deliver(m, memberId, f).1.Rejected?
  {
  }

  // ------------------------------------------------ a node's message stream

  /** What a node emitted for one delivered message. */
  datatype Output = Responded(response: seq<byte>) | Rejected(error: Exception)

  /** One delivery: a message that throws leaves the register as it was and
      sends nothing. */
  function Deliver(m: ReplicatedStateMachine, memberId: Int32, f: Fragment): (r: (ReplicatedStateMachine, Output))
    ensures r.1.Rejected? ==> r.0 == m
    ensures r.1.Rejected? <==> DecodeRequest(f).Failure?
  {
    match OnSessionMessage(m, memberId, f)
    case Success(step) => (step.machine, Responded(step.response))
    case Failure(e) => (m, Rejected(e))
  }

  /** One node's delivery step as a function value. */
  function Delivery(memberId: Int32): (ReplicatedStateMachine, Fragment) -> (ReplicatedStateMachine, Output) {
    (m: ReplicatedStateMachine, f: Fragment) => Deliver(m, memberId, f)
  }

  /** A stream of deliveries, in order, each from the register the previous
      one left, collecting one output per message. */
  function Steps(step: (ReplicatedStateMachine, Fragment) -> (ReplicatedStateMachine, Output),
                 m: ReplicatedStateMachine, fs: seq<Fragment>): (r: (ReplicatedStateMachine, seq<Output>))
    ensures |r.1| == |fs|
    decreases |fs|
  {
    if |fs| == 0 then (m, [])
    else
      var (m', outs) := Steps(step, m, fs[..|fs| - 1]);
      var (m'', out) := step(m', fs[|fs| - 1]);
      (m'', outs + [out])
  }

  /** Later messages do not change earlier outputs. */
  lemma {:induction false} StepsOutputsStable(step: (ReplicatedStateMachine, Fragment) -> (ReplicatedStateMachine, Output),
                                              m: ReplicatedStateMachine, fs: seq<Fragment>, i: nat)
    requires i < |fs|
    ensures Steps(step, m, fs).1[i] == Steps(step, m, fs[..i + 1]).1[i]
    decreases |fs|
  {
    var n := |fs| - 1;
    if i < n {
      var init := fs[..n];
      StepsOutputsStable(step, m, init, i);
      assert init[..i + 1] == fs[..i + 1];
    } else {
      assert fs[..i + 1] == fs;
    }
  }

  /** Output i is what the step makes of message i from the register the
      first i messages left. */
  lemma StepsAt(step: (ReplicatedStateMachine, Fragment) -> (ReplicatedStateMachine, Output),
                m: ReplicatedStateMachine, fs: seq<Fragment>, i: nat)
    requires i < |fs|
    ensures Steps(step, m, fs).1[i] == step(Steps(step, m, fs[..i]).0, fs[i]).1
  {
    var upto := fs[..i + 1];
    StepsOutputsStable(step, m, fs, i);
    assert upto[..i] == fs[..i];
    assert upto[i] == fs[i];
  }

  /** A node fed the messages fs in commit order, from register m. */
  function Run(m: ReplicatedStateMachine, memberId: Int32, fs: seq<Fragment>): (r: (ReplicatedStateMachine, seq<Output>))
    ensures |r.1| == |fs|
  {
    Steps(Delivery(memberId), m, fs)
  }

  /** The last message is delivered from the register the others left. */
  lemma RunSnoc(m: ReplicatedStateMachine, memberId: Int32, fs: seq<Fragment>)
    requires |fs| > 0
    ensures var prev := Run(m, memberId, fs[..|fs| - 1]);
            var last := Deliver(prev.0, memberId, fs[|fs| - 1]);
            Run(m, memberId, fs) == (last.0, prev.1 + [last.1])
  {
  }

  /** Two outputs agree everywhere except in the member-id field. */
  predicate SameButMemberId(a: Output, b: Output) {
    match (a, b)
    case (Rejected(e1), Rejected(e2)) => e1 == e2
    case (Responded(r1), Responded(r2)) =>
      |r1| == |r2| == RESPONSE_LENGTH && r1[..RESPONSE_MEMBER_ID_POSITION] == r2[..RESPONSE_MEMBER_ID_POSITION]
    case _ => false
  }

  /** Replica agreement: whatever the member ids, nodes fed the same messages
      from the same register end with the same register and send responses
      that differ only in bytes 16..19, the responding member's id. */
  lemma {:induction false} ReplicasAgree(m: ReplicatedStateMachine, a: Int32, b: Int32, fs: seq<Fragment>)
    ensures Run(m, a, fs).0 == Run(m, b, fs).0
    ensures forall i :: 0 <= i < |fs| ==> SameButMemberId(Run(m, a, fs).1[i], Run(m, b, fs).1[i])
  {
    if |fs| > 0 {
      var init := fs[..|fs| - 1];
      ReplicasAgree(m, a, b, init);
      var m' := Run(m, a, init).0;
      var f := fs[|fs| - 1];
      match DecodeRequest(f)
      case Failure(_) =>
      case Success(c) =>
        var ra := OnSessionMessage(m', a, f).value.response;
        var rb := OnSessionMessage(m', b, f).value.response;
        ResponsePrefixDeterminedByFields(ra, rb);
    }
  }

  /** Every response a node sends names that node in its member-id field. */
  lemma {:induction false} RunResponsesIdentifyNode(m: ReplicatedStateMachine, memberId: Int32, fs: seq<Fragment>)
    ensures forall i :: 0 <= i < |fs| && Run(m, memberId, fs).1[i].Responded? ==>
              GetInt(Run(m, memberId, fs).1[i].response, RESPONSE_MEMBER_ID_POSITION) == Success(memberId)
  {
    if |fs| > 0 {
      var init := fs[..|fs| - 1];
      RunResponsesIdentifyNode(m, memberId, init);
      RunSnoc(m, memberId, fs);
      var r := OnSessionMessage(Run(m, memberId, init).0, memberId, fs[|fs| - 1]);
      assert r.Success? ==> Deliver(Run(m, memberId, init).0, memberId, fs[|fs| - 1]).1 == Responded(r.value.response);
    }
  }

  /** Output i is what message i gets from the register the first i messages
      left behind. */
  lemma RunAt(m: ReplicatedStateMachine, memberId: Int32, fs: seq<Fragment>, i: nat)
    requires i < |fs|
    ensures Run(m, memberId, fs).1[i] == Deliver(Run(m, memberId, fs[..i]).0, memberId, fs[i]).1
  {
    StepsAt(Delivery(memberId), m, fs, i);
  }

  /** The register after the first i + 1 messages is what message i leaves. */
  lemma RunPrefixStep(m: ReplicatedStateMachine, memberId: Int32, fs: seq<Fragment>, i: nat)
    requires i < |fs|
    ensures Run(m, memberId, fs[..i + 1]).0 == Deliver(Run(m, memberId, fs[..i]).0, memberId, fs[i]).0
  {
    assert fs[..i + 1][..i] == fs[..i];
    assert fs[..i + 1][i] == fs[i];
  }

  /** Reference definition of what the register reads after a stream: the
      value of the last SET that decoded, or the starting value if none did. */
  function LastWritten(m: ReplicatedStateMachine, fs: seq<Fragment>): Long {
    if |fs| == 0 then GetValue(m)
    else
      match DecodeRequest(fs[|fs| - 1])
      case Success(Set(_, v)) => v
      case _ => LastWritten(m, fs[..|fs| - 1])
  }

  /** A node's register after a stream holds the last decoded SET's value:
      GETs and rejected messages never change it. */
  lemma {:induction false} RunValueIsLastWrite(m: ReplicatedStateMachine, memberId: Int32, fs: seq<Fragment>)
    ensures GetValue(Run(m, memberId, fs).0) == LastWritten(m, fs)
  {
    if |fs| > 0 {
      var init := fs[..|fs| - 1];
      var f := fs[|fs| - 1];
      RunValueIsLastWrite(m, memberId, init);
      var m' := Run(m, memberId, init).0;
      assert Run(m, memberId, fs).0 == Deliver(m', memberId, f).0;
      match DecodeRequest(f)
      case Failure(_) =>
      case Success(c) =>
        assert Deliver(m', memberId, f).0 == OnSessionMessage(m', memberId, f).value.machine;
    }
  }

  /** Output i answers message i: it is rejected exactly when message i does
      not decode, and otherwise carries message i's correlation id and the
      value of the last SET decoded up to and including message i. */
  lemma RunOutputsMatchMessages(m: ReplicatedStateMachine, memberId: Int32, fs: seq<Fragment>)
    ensures forall i :: 0 <= i < |fs| ==> (Run(m, memberId, fs).1[i].Rejected? <==> DecodeRequest(fs[i]).Failure?)
    ensures forall i :: 0 <= i < |fs| && Run(m, memberId, fs).1[i].Responded? ==>
              && GetLong(Run(m, memberId, fs).1[i].response, 0) == Success(DecodeRequest(fs[i]).value.correlationId)
              && GetLong(Run(m, memberId, fs).1[i].response, RESPONSE_VALUE_POSITION) == Success(LastWritten(m, fs[..i + 1]))
  {
    forall i | 0 <= i < |fs|
      ensures Run(m, memberId, fs).1[i].Rejected? <==> DecodeRequest(fs[i]).Failure?
      ensures Run(m, memberId, fs).1[i].Responded? ==>
              && GetLong(Run(m, memberId, fs).1[i].response, 0) == Success(DecodeRequest(fs[i]).value.correlationId)
              && GetLong(Run(m, memberId, fs).1[i].response, RESPONSE_VALUE_POSITION) == Success(LastWritten(m, fs[..i + 1]))
    {
      OutputAnswers(m, memberId, fs, i);
    }
  }

  lemma OutputAnswers(m: ReplicatedStateMachine, memberId: Int32, fs: seq<Fragment>, i: nat)
    requires i < |fs|
    ensures Run(m, memberId, fs).1[i].Rejected? <==> DecodeRequest(fs[i]).Failure?
    ensures Run(m, memberId, fs).1[i].Responded? ==>
              && GetLong(Run(m, memberId, fs).1[i].response, 0) == Success(DecodeRequest(fs[i]).value.correlationId)
              && GetLong(Run(m, memberId, fs).1[i].response, RESPONSE_VALUE_POSITION) == Success(LastWritten(m, fs[..i + 1]))
  {
    var before := Run(m, memberId, fs[..i]).0;
    RunAt(m, memberId, fs, i);
    RunPrefixStep(m, memberId, fs, i);
    RunValueIsLastWrite(m, memberId, fs[..i + 1]);
    var r := OnSessionMessage(before, memberId, fs[i]);
    if r.Success? {
      assert Deliver(before, memberId, fs[i]) == (r.value.machine, Responded(r.value.response));
    }
  }

  /** Responses with equal correlation id and value fields share their first
      16 bytes. */
  lemma ResponsePrefixDeterminedByFields(r1: seq<byte>, r2: seq<byte>)
    requires |r1| == |r2| == RESPONSE_LENGTH
    requires GetLong(r1, 0) == GetLong(r2, 0)
    requires GetLong(r1, RESPONSE_VALUE_POSITION) == GetLong(r2, RESPONSE_VALUE_POSITION)
    ensures r1[..RESPONSE_MEMBER_ID_POSITION] == r2[..RESPONSE_MEMBER_ID_POSITION]
  {
    LongBytesRoundTrip(r1[..8]);
    LongBytesRoundTrip(r2[..8]);
    LongBytesRoundTrip(r1[8..16]);
    LongBytesRoundTrip(r2[8..16]);
    assert r1[..16] == r1[..8] + r1[8..16];
    assert r2[..16] == r2[..8] + r2[8..16];
  }
}

=== FILE: java_types.dfy ===
/** The Java primitive types the system works with, as ranges of mathematical
    integers, and the exceptions the modelled code can throw. */
module JavaTypes {

  const LONG_MIN: int := -0x8000_0000_0000_0000
  const LONG_MAX: int := 0x7fff_ffff_ffff_ffff
  const INT_MIN: int := -0x8000_0000
  const INT_MAX: int := 0x7fff_ffff
  const CHAR_MAX: int := 0xffff

  /** Java `long`: 64-bit two's complement. */
  type Long = x: int | LONG_MIN <= x <= LONG_MAX

  /** Java `int`: 32-bit two's complement. */
  type Int32 = x: int | INT_MIN <= x <= INT_MAX

  /** Java `char`: an unsigned 16-bit code unit. */
  type Char16 = x: int | 0 <= x <= CHAR_MAX

  /** Java `int` arithmetic wraps modulo 2^32 into the signed range. */
  function WrapInt(x: int): Int32 {
    (x - INT_MIN) % 0x1_0000_0000 + INT_MIN
  }

  /** Wrapping changes a value by a multiple of 2^32 and leaves values that
      already fit in an `int` alone. */
  lemma WrapIntProperties(x: int)
    ensures INT_MIN <= x <= INT_MAX ==> WrapInt(x) == x
    ensures (WrapInt(x) - x) % 0x1_0000_0000 == 0
  {
  }

  /** The unchecked exceptions thrown by the code this project models. */
  datatype Exception =
    | IndexOutOfBoundsException(index: int, length: nat, capacity: nat)
    | IllegalStateException(unexpected: Char16)
    | StringIndexOutOfBoundsException(newLength: int)
}

=== FILE: message_type.dfy ===
/** The two request kinds and their one-character wire tags. */
module MessageTypes {
  import opened JavaTypes
  import opened Wrappers

  datatype MessageType = GET | SET

  const GET_CODE: Char16 := 'g' as int
  const SET_CODE: Char16 := 's' as int

  /** `getCharCode`. */
  function CharCode(t: MessageType): (c: Char16)
    ensures t == GET <==> c == GET_CODE
    ensures t == SET <==> c == SET_CODE
  {
    match t
    case GET => GET_CODE
    case SET => SET_CODE
  }

  /** `fromCode`: the kind whose tag is c; any other code throws
      IllegalStateException naming the unexpected value. */
  function FromCode(c: Char16): (r: Result<MessageType, Exception>)
    ensures r.Success? <==> c == CharCode(GET) || c == CharCode(SET)
    ensures r.Success? ==> CharCode(r.value) == c
    ensures r.Failure? ==> r.error == IllegalStateException(c)
  {
    if c == GET_CODE then Success(GET)
    else if c == SET_CODE then Success(SET)
    else Failure(IllegalStateException(c))
  }

  /** The wire table: 'g' is GET and 's' is SET, in both directions. */
  lemma WireTags()
    ensures CharCode(GET) == 'g' as int && CharCode(SET) == 's' as int
    ensures FromCode('g' as int) == Success(GET) && FromCode('s' as int) == Success(SET)
  {
  }

  /** Decoding a kind's own tag gives the kind back. */
  lemma FromCodeOfCharCode(t: MessageType)
    ensures FromCode(CharCode(t)) == Success(t)
  {
  }

  /** The tags are distinct, so a tag identifies its kind. */
  lemma CharCodeInjective(a: MessageType, b: MessageType)
    requires CharCode(a) == CharCode(b)
    ensures a == b
  {
  }
}

=== FILE: protocol.dfy ===
/** How the client and the service fit together: each side decodes what the
    other encodes, at any offset inside the transport's buffer, and a SET
    followed by a GET reads back the value written. */
module Protocol {
  import opened JavaTypes
  import opened Wrappers
  import opened Bytes
  import opened MessageTypes
  import opened StateMachine
  import opened ClusteredService
  import Client

  /** The service decodes a client GET request to the same correlation id. */
  lemma ServiceDecodesGetRequest(correlationId: Long, pre: seq<byte>, post: seq<byte>)
    ensures DecodeRequest(Fragment(pre + Client.EncodeGetRequest(correlationId) + post, |pre|))
         == Success(Get(correlationId))
  {
    var req := Client.EncodeGetRequest(correlationId);
    GetLongEmbedded(pre, req, post, 0);
    GetCharEmbedded(pre, req, post, MESSAGE_TYPE_POSITION);
  }

  /** The service decodes a client SET request to the same correlation id and
      value. */
  lemma ServiceDecodesSetRequest(correlationId: Long, value: Long, pre: seq<byte>, post: seq<byte>)
    ensures DecodeRequest(Fragment(pre + Client.EncodeSetRequest(correlationId, value) + post, |pre|))
         == Success(Set(correlationId, value))
  {
    var req := Client.EncodeSetRequest(correlationId, value);
    GetLongEmbedded(pre, req, post, 0);
    GetCharEmbedded(pre, req, post, MESSAGE_TYPE_POSITION);
    GetLongEmbedded(pre, req, post, VALUE_POSITION);
  }

  /** The client's listener records exactly the correlation id and the
      register value the service wrote into its response. */
  lemma ClientDecodesResponse(s: Client.ClientState, m: ReplicatedStateMachine, memberId: Int32, f: Fragment,
                              pre: seq<byte>, post: seq<byte>)
    requires OnSessionMessage(m, memberId, f).Success?
    ensures var step := OnSessionMessage(m, memberId, f).value;
            Client.OnMessage(s, Fragment(pre + step.response + post, |pre|))
              == Success(Client.ClientState(DecodeRequest(f).value.correlationId, GetValue(step.machine)))
  {
    var step := OnSessionMessage(m, memberId, f).value;
    GetLongEmbedded(pre, step.response, post, 0);
    GetLongEmbedded(pre, step.response, post, RESPONSE_VALUE_POSITION);
  }

  /** A node answers a client SET request with the value set, echoing the
      request's correlation id. */
  lemma SetRequestAnswered(m: ReplicatedStateMachine, memberId: Int32, correlationId: Long, value: Long)
    ensures var r := OnSessionMessage(m, memberId, Fragment(Client.EncodeSetRequest(correlationId, value), 0));
            && r.Success?
            && GetValue(r.value.machine) == value
            && Client.OnMessage(Client.INITIAL_STATE, Fragment(r.value.response, 0)) == Success(Client.ClientState(correlationId, value))
  {
    var req := Fragment(Client.EncodeSetRequest(correlationId, value), 0);
    assert [] + req.buffer + [] == req.buffer;
    ServiceDecodesSetRequest(correlationId, value, [], []);
    var step := OnSessionMessage(m, memberId, req).value;
    assert [] + step.response + [] == step.response;
    ClientDecodesResponse(Client.INITIAL_STATE, m, memberId, req, [], []);
  }

  /** Reads see the last write: after any stream of committed messages, a
      client GET is answered, under its correlation id, with the value of the
      last SET in the stream that decoded, or the starting register's value
      if none did. */
  lemma GetReadsLastWrite(m: ReplicatedStateMachine, memberId: Int32, fs: seq<Fragment>, c: Long)
    ensures var out := Run(m, memberId, fs + [Fragment(Client.EncodeGetRequest(c), 0)]).1[|fs|];
            && out.Responded?
            && Client.OnMessage(Client.INITIAL_STATE, Fragment(out.response, 0))
                 == Success(Client.ClientState(c, LastWritten(m, fs)))
  {
    var get := Fragment(Client.EncodeGetRequest(c), 0);
    var all := fs + [get];
    assert [] + get.buffer + [] == get.buffer;
    ServiceDecodesGetRequest(c, [], []);
    assert all[|fs|] == get && all[..|fs|] == fs && all[..|fs| + 1] == all;
    assert LastWritten(m, all) == LastWritten(m, fs);
    OutputAnswers(m, memberId, all, |fs|);
  }

  /** On any node, from any register, a GET issued after a SET returns the
      value that SET wrote, and the client sees it under the GET's
      correlation id. */
  lemma SetThenGet(m: ReplicatedStateMachine, memberId: Int32, c1: Long, v: Long, c2: Long)
    ensures var r := Run(m, memberId, [Fragment(Client.EncodeSetRequest(c1, v), 0), Fragment(Client.EncodeGetRequest(c2), 0)]);
            && GetValue(r.0) == v
            && r.1[1].Responded?
            && Client.OnMessage(Client.INITIAL_STATE, Fragment(r.1[1].response, 0)) == Success(Client.ClientState(c2, v))
  {
    var setReq := Fragment(Client.EncodeSetRequest(c1, v), 0);
    var getReq := Fragment(Client.EncodeGetRequest(c2), 0);
    assert [] + setReq.buffer + [] == setReq.buffer;
    ServiceDecodesSetRequest(c1, v, [], []);
    assert LastWritten(m, [setReq]) == v;
    GetReadsLastWrite(m, memberId, [setReq], c2);
    var fs := [setReq, getReq];
    assert fs == [setReq] + [getReq];
    RunValueIsLastWrite(m, memberId, fs);
    assert fs[..1] == [setReq];
  }
}

=== FILE: state_machine.dfy ===
/** The replicated state: a single Java `long` register. */
module StateMachine {
  import opened JavaTypes

  datatype ReplicatedStateMachine = ReplicatedStateMachine(value: Long)

  /** A new machine holds the default value of a `MutableLong`, 0. */
  function Create(): (m: ReplicatedStateMachine)
    ensures GetValue(m) == 0
  {
    ReplicatedStateMachine(0)
  }

  /** `setValue`: afterwards the register reads back v. */
  function SetValue(m: ReplicatedStateMachine, v: Long): (m': ReplicatedStateMachine)
    ensures GetValue(m') == v
  {
    m.(value := v)
  }

  /** `getValue`: a read, with no new state; the value read is all there is
      to the machine. */
  function GetValue(m: ReplicatedStateMachine): (v: Long)
    ensures m == ReplicatedStateMachine(v)
  {
    m.value
  }

  /** Only the last write counts, so repeating a write changes nothing. */
  lemma LastWriteWins(m: ReplicatedStateMachine, a: Long, b: Long)
    ensures SetValue(SetValue(m, a), b) == SetValue(m, b)
    ensures SetValue(SetValue(m, b), b) == SetValue(m, b)
  {
  }
}

=== FILE: strings.dfy ===
/** String building blocks: Java's `Integer.toString` for the numbers a
    `StringBuilder` appends, and the joined / terminated lists the topology
    strings are made of. */
module Strings {

  // ------------------------------------------------------------ decimals

  predicate IsDigit(c: char) {
    '0' <= c <= '9'
  }

  predicate IsDigits(s: string) {
    forall k :: 0 <= k < |s| ==> IsDigit(s[k])
  }

  /** The characters `Integer.toString` can produce. */
  predicate IsNumeral(s: string) {
    forall k :: 0 <= k < |s| ==> IsDigit(s[k]) || s[k] == '-'
  }

  function DigitChar(d: nat): (c: char)
    requires d < 10
    ensures IsDigit(c)
  {
    "0123456789"[d]
  }

  function DigitValue(c: char): (d: nat)
    requires IsDigit(c)
    ensures d < 10
  {
    c as int - '0' as int
  }

  /** Decimal digits of n, most significant first, without leading zeros. */
  function NatToString(n: nat): (s: string)
    ensures |s| >= 1 && IsDigits(s)
    ensures |s| > 1 ==> s[0] != '0'
  {
    if n < 10 then [DigitChar(n)] else NatToString(n / 10) + [DigitChar(n % 10)]
  }

  /** Java's `Integer.toString` (and `StringBuilder.append(int)`). */
  function IntToString(n: int): (s: string)
    ensures |s| >= 1 && IsNumeral(s)
    ensures s[0] == '-' <==> n < 0
  {
    if n < 0 then "-" + NatToString(-n) else NatToString(n)
  }

  function ParseNat(s: string): nat
    requires IsDigits(s)
  {
    if |s| == 0 then 0 else 10 * ParseNat(s[..|s| - 1]) + DigitValue(s[|s| - 1])
  }

  function ParseInt(s: string): int
    requires |s| >= 1 && IsNumeral(s)
    requires s[0] == '-' ==> IsDigits(s[1..])
    requires s[0] != '-' ==> IsDigits(s)
  {
    if s[0] == '-' then 0 - ParseNat(s[1..]) else ParseNat(s)
  }

  lemma {:induction false} ParseNatToString(n: nat)
    ensures ParseNat(NatToString(n)) == n
  {
    var s := NatToString(n);
    if n >= 10 {
      assert s[..|s| - 1] == NatToString(n / 10);
      ParseNatToString(n / 10);
    }
  }

  lemma ParseIntToString(n: int)
    ensures var s := IntToString(n);
            && (s[0] == '-' ==> IsDigits(s[1..]))
            && (s[0] != '-' ==> IsDigits(s))
            && ParseInt(s) == n
  {
    var s := IntToString(n);
    if n < 0 {
      var digits := NatToString(-n);
      ParseNatToString(-n);
      assert s == "-" + digits;
      assert s[0] == '-' && s[1..] == digits;
    } else {
      ParseNatToString(n);
      assert IsDigit(s[0]);
    }
  }

  /** Distinct numbers print differently. */
  lemma IntToStringInjective(a: int, b: int)
    requires IntToString(a) == IntToString(b)
    ensures a == b
  {
    ParseIntToString(a);
    ParseIntToString(b);
  }

  // ------------------------------------------------------------ counting

  function Count(s: string, c: char): nat {
    if |s| == 0 then 0 else Count(s[..|s| - 1], c) + (if s[|s| - 1] == c then 1 else 0)
  }

  lemma {:induction false} CountAppend(a: string, b: string, c: char)
    ensures Count(a + b, c) == Count(a, c) + Count(b, c)
  {
    if |b| > 0 {
      assert (a + b)[..|a + b| - 1] == a + b[..|b| - 1];
      CountAppend(a, b[..|b| - 1], c);
    } else {
      assert a + b == a;
    }
  }

  lemma {:induction false} CountAbsent(s: string, c: char)
    requires forall k :: 0 <= k < |s| ==> s[k] != c
    ensures Count(s, c) == 0
  {
    if |s| > 0 {
      CountAbsent(s[..|s| - 1], c);
    }
  }

  /** A printed number holds no character other than digits and '-'. */
  lemma CountIntToString(n: int, c: char)
    requires !IsDigit(c) && c != '-'
    ensures Count(IntToString(n), c) == 0
  {
    CountAbsent(IntToString(n), c);
  }

  // ------------------------------------------------------- joins

  /** The parts separated by sep, with no separator after the last one. */
  function Join(parts: seq<string>, sep: char): string {
    if |parts| == 0 then ""
    else if |parts| == 1 then parts[0]
    else Join(parts[..|parts| - 1], sep) + [sep] + parts[|parts| - 1]
  }

  /** The parts each followed by term. */
  function Terminated(parts: seq<string>, term: char): string {
    if |parts| == 0 then ""
    else Terminated(parts[..|parts| - 1], term) + parts[|parts| - 1] + [term]
  }

  /** Concatenation of the parts, with nothing in between. */
  function Concat(parts: seq<string>): string {
    if |parts| == 0 then "" else Concat(parts[..|parts| - 1]) + parts[|parts| - 1]
  }

  lemma TerminatedSnoc(parts: seq<string>, p: string, c: char)
    ensures Terminated(parts + [p], c) == Terminated(parts, c) + p + [c]
  {
    assert (parts + [p])[..|parts|] == parts;
  }

  lemma JoinSnoc(parts: seq<string>, p: string, c: char)
    requires |parts| >= 1
    ensures Join(parts + [p], c) == Join(parts, c) + [c] + p
  {
    assert (parts + [p])[..|parts|] == parts;
  }

  lemma ConcatSnoc(parts: seq<string>, p: string)
    ensures Concat(parts + [p]) == Concat(parts) + p
  {
    assert (parts + [p])[..|parts|] == parts;
  }

  /** Terminating every part and dropping the final terminator is joining. */
  lemma {:induction false} TerminatedIsJoinPlusSeparator(parts: seq<string>, c: char)
    requires |parts| >= 1
    ensures Terminated(parts, c) == Join(parts, c) + [c]
  {
    if |parts| > 1 {
      var init := parts[..|parts| - 1];
      TerminatedIsJoinPlusSeparator(init, c);
      assert init[..|init| - 1] == parts[..|parts| - 2];
    }
  }

  /** A joined list holds one separator fewer than it has parts, when no part
      contains the separator. */
  lemma {:induction false} CountJoin(parts: seq<string>, c: char)
    requires |parts| >= 1
    requires forall i :: 0 <= i < |parts| ==> Count(parts[i], c) == 0
    ensures Count(Join(parts, c), c) == |parts| - 1
  {
    if |parts| > 1 {
      var init := parts[..|parts| - 1];
      CountJoin(init, c);
      CountAppend(Join(init, c) + [c], parts[|parts| - 1], c);
      CountAppend(Join(init, c), [c], c);
      var single: string := [c];
      assert single[..0] == "";
      assert Count(single, c) == 1;
    }
  }

  /** Each part contributes its own count. */
  lemma {:induction false} CountConcat(parts: seq<string>, c: char, each: nat)
    requires forall i :: 0 <= i < |parts| ==> Count(parts[i], c) == each
    ensures Count(Concat(parts), c) == |parts| * each
  {
    if |parts| > 0 {
      var n := |parts| - 1;
      var init := parts[..n];
      forall i | 0 <= i < n
        ensures Count(init[i], c) == each
      {
        assert init[i] == parts[i];
      }
      CountConcat(init, c, each);
      assert Concat(parts) == Concat(init) + parts[n];
      CountAppend(Concat(init), parts[n], c);
      assert n * each + each == (n + 1) * each;
    }
  }
}

=== FILE: wrappers.dfy ===
/** Failure-compatible result type: a Java method either returns a value or
    throws; `Failure` carries the exception that would have been thrown. */
module Wrappers {

  datatype Result<+T, +E> = Success(value: T) | Failure(error: E) {

    predicate IsFailure() {
      Failure?
    }

    function PropagateFailure<U>(): Result<U, E>
      requires Failure?
    {
      Failure(error)
    }

    function Extract(): T
      requires Success?
    {
      value
    }
  }
}
